=== FILE: README.md ===
# pkg-usege-analyzer, modelled in Dafny

pkg-usege-analyzer answers the question "who uses this package, and through
which exports?" for a TypeScript project. It works in three steps:

- **Import-site scan.** It finds every import declaration that names the target package or file. For each one, it works out which exports of the importing file the imported names reach. A non-exported local declaration passes its uses on to the declaration's own references.
- **Usage tree.** It builds a usage tree: the target at the root, its importing files below it, and the files that import those files one level further down.
- **Weights.** It folds usage weights over such a tree, bottom-up. It also extracts root-to-page paths, so that the weight can be scoped to one page of an application.

This project models that core as pure Dafny functions over immutable datatypes. The exception is the path search, which is an imperative method with loop invariants.

| module | file | models |
|---|---|---|
| `Wrappers` | wrappers.dfy | `Option` and `Result` |
| `SourceModel` | source_model.dfy | files, import declarations, syntax nodes with a closed kind classification, and the reference lookup |
| `ExportTable` | export_table.dfy | the per-declaration accumulator of exports and the imported names that reach them |
| `Reachability` | reachability.dfy | `findExportVars` and `getExportsWhoUseThisPkg` / `getExportsWhoUseThisVars` |
| `ImportScan` | import_scan.dfy | matching declarations against the target, the allow-list, and one node per import site |
| `GenPkgUsedInfoTree` | gen_pkg_used_info_tree.dfy | `getPkgUsedInfoTree`, `getPkgUsedInfoTrees` and `getPkgsUsedInfoTree` |
| `LegacyIndex` | legacy_index.dfy | `getPackageUsedInfoTree` and `analyzePkgUsedInfoInEveryPage` of the older index.ts |
| `Statistics` | statistics.dfy | `computeImportVarsUsedCountOfLeafs`, `computeImportVarsUsedCountByPaths`, `getUsedInfoTreePathOfTarget` and `computeImportVarsUsedCountOfPages` |

The two reachability scans, getExportsWhoUseThisPkg in src/utils/genPkgUsedInfoTree.ts and getExportsWhoUseThisVars in index.ts, differ in how they read the name of an export site. The newer one skips a site that has no identifier child. The older one reads that name without a guard, so it throws a TypeError. (The two import-site scans around them also differ: only the newer one has an allow-list.) `Reachability.NamePolicy` selects between the two behaviours. The throw is modelled as a `Failure` result.

The walk from a non-exported local declaration back to its references has no termination guard in the source. A declaration that references itself would recurse forever. The model therefore carries a `fuel` bound, and termination is not claimed.

The statistics code reads each entry of an export's `importVarNames` as a record `{ name, usedCount }`. The tree builder declares those entries as plain names and never produces counts. `Statistics` therefore has its own node type (`StatNode`), and where the counts come from is not modelled.

Some facts about the code that shape the model:

- **Classification.** A node on a reference chain is a type or import node, an export node, a declaration, or something else; there is no further outcome. The tree builder keeps no counts: an export entry is an export name with a duplicate-free list of imported names.
- **Tree depth.** The usage tree is not built to a fixed point. src/utils/genPkgUsedInfoTree.ts builds at most three levels: root, importers, and importers of those. A package nobody imports has only the root, and an importer that nobody imports in turn has no third level below it. index.ts builds the root, the importers, and the page files that import those importers.
- **Accumulator.** The object passed down the walk is only a per-declaration accumulator of exports. Restarting at a local declaration saves no work, and the restart's own return value is always "no export".
- **Nodes without exports.** Every matching declaration yields a node, even one whose export list is empty.
- **Page entries.** A page entry is a node whose key is `<pageDir>/index.tsx` or `<pageDir>/index.ts`.
- **Path extraction.** Paths are not clean per-branch chains. In a diamond, a later path can lose the prefix it shares with an earlier one. A dead-end node can also stay inside a path while siblings are pending.
- **Unbounded recursion.** The only unbounded recursion is the local-declaration restart. The file-level tree is bounded by construction.

## Model

| member | source | states |
|---|---|---|
| SourceModel.SameFile | src/utils/genPkgUsedInfoTree.ts:75-79 | a reference is kept iff it lies in the scanned file |
| ExportTable.Find | src/utils/genPkgUsedInfoTree.ts:95 | the lookup finds an entry with the given export name exactly when one exists |
| ExportTable.Accumulate | src/utils/genPkgUsedInfoTree.ts:95-104 | Recording a use keeps export names unique and name lists free of duplicates. The result records the pair, and no other pair is added. Keys grow by exactly the export name, and recorded names grow by exactly the imported name. At most one old entry changes, and it only gains the imported name at the end of its list, when that name was not there yet. The table grows by one entry, holding exactly the imported name, iff the export name was new. index.ts:98-107 has the same accumulator |
| Reachability.RecordExport | src/utils/genPkgUsedInfoTree.ts:88-104 | A site without an identifier, or with an empty one, leaves the table unchanged under the guarded policy. Otherwise the use is recorded under the site's name; that name is the only key added, and the pair of that name with the imported name is the only pair added. Failure happens iff the unguarded policy of index.ts:93-108 meets a site without an identifier, and the failure reports that site |
| Reachability.FindExportVars | src/utils/genPkgUsedInfoTree.ts:32-59 | The returned site is exactly the export node at which the walk stops (its first classified node), and none when it stops elsewhere. The table changes only when the walk restarts at a non-exported declaration. Then every export that declaration's local references reach is recorded under the propagated name when it is non-empty. Every pair the restart adds names an export the walk reaches, and lists the propagated name when that is non-empty; every new key is such an export. The walk only extends the table. With the guarded policy it never fails. Under the unguarded policy of index.ts:31-63 it never fails when every export site is named, and any failure names an unnamed export node |
| Reachability.FindExportVarsFirstClassified | src/utils/genPkgUsedInfoTree.ts:52-58 | The walk decides at the first node whose kind is not "other", and ignores everything above it. A chain of "other" nodes yields no export and an unchanged table |
| Reachability.ScanRefs | src/utils/genPkgUsedInfoTree.ts:85-106 | Every export reached from one of the references, directly or through restarts at local declarations, is recorded under the item's name. Conversely, every pair the loop adds names an export one of the references reaches, and lists the item's name; every key added is such a reached export. Both directions need a non-empty name. The loop only extends the table. It cannot fail under the guarded policy, or when all reached export sites are named |
| Reachability.ScanItems | src/utils/genPkgUsedInfoTree.ts:70-110 | For each item, every export its references in the file reach is recorded under the item's name (or the propagated name). Conversely, every pair the scan adds lists the name of an item whose references reach that pair's export, and every key added is reached from some item. The scan only extends a well-formed table. The names it records are those of the scanned items, or the propagated name when one is given. It cannot fail under the guarded policy. Under the unguarded read of index.ts:65-113 it succeeds whenever every export site in the reference index has an identifier, and any failure names an unnamed export node |
| Reachability.ExportsOf | src/utils/genPkgUsedInfoTree.ts:152-155 | The export list of one import site is a well-formed table whose imported names are among the site's item names. Every export an item reaches in the importing file is listed with that item's name. Conversely, every listed (export, name) pair comes from an item of that name whose references reach that export, and every listed export is reached by some item. An item with empty text is the exception: its restarts may record a declaration's own text. It cannot fail under the guarded policy |
| ImportScan.Matches | src/utils/genPkgUsedInfoTree.ts:125-135 | a declaration names the target iff its literal specifier is the target or it resolves to a file whose path is the target |
| ImportScan.FilterNamedIsSubList | src/utils/genPkgUsedInfoTree.ts:139-140 | the filtered named imports are an order-preserving sub-list holding every occurrence of an allowed name and nothing else |
| ImportScan.SiteNode | src/utils/genPkgUsedInfoTree.ts:135-157 | A declaration yields a node iff it names the target and the allow-list does not skip it. The node is keyed by the importing file and names the target. It lists the kept named imports and the default import, and has no references. Its export table is the reachability scan of exactly those names in the importing file |
| ImportScan.ScanDecls | src/utils/genPkgUsedInfoTree.ts:124-158 | the nodes of one file are, position by position, the nodes of its emitting declarations in declaration order |
| ImportScan.ScanFiles | src/utils/genPkgUsedInfoTree.ts:123-159 | the nodes of the scan are, position by position, the nodes of all emitting (file, declaration) pairs in file order then declaration order, so a file importing the target twice yields two nodes |
| ImportScan.SitesComplete | src/utils/genPkgUsedInfoTree.ts:123-135 | every (file, declaration) pair that names the target and is not skipped has a position in the scan's output |
| ImportScan.AllowListContainment | src/utils/genPkgUsedInfoTree.ts:139-145 | with a non-empty allow-list every node lists only allowed names and has at least one, or an allowed default-import text |
| ImportScan.ScanRoot | src/utils/genPkgUsedInfoTree.ts:161-164 | the root is keyed by the target and its references are exactly the scan's nodes |
| GenPkgUsedInfoTree.GetPkgUsedInfoTree | src/utils/genPkgUsedInfoTree.ts:119-165 | The guarded scan always returns a tree rooted at the target whose references are, position by position, the emitting import sites. At each site, the listed names are among the kept named imports and the default import. Every export that one of them reaches in the importing file is listed with that import's name. Every listed (export, name) pair comes from an import of that name that reaches the export |
| GenPkgUsedInfoTree.GetPkgUsedInfoTreeAllowList | src/utils/genPkgUsedInfoTree.ts:139-150 | with a non-empty allow-list every import site of the tree lists only allowed named imports, and keeps one of them or an allowed default import |
| GenPkgUsedInfoTree.ExpandTrees | src/utils/genPkgUsedInfoTree.ts:167-181 | Expansion keeps the number of trees, and every field of a tree but its references. It keeps the number of references, and leaves nodes without references untouched |
| GenPkgUsedInfoTree.ExpandTreesIsShallow | src/utils/genPkgUsedInfoTree.ts:171-176 | the recursive call has no lasting effect: one non-recursive rescan of each node's references gives the same trees |
| GenPkgUsedInfoTree.ExpandTreesExpands | src/utils/genPkgUsedInfoTree.ts:167-181 | Every expanded tree is its input with each import site given the consumers of its file. No node below the second level has references |
| GenPkgUsedInfoTree.ExpandedHasThreeLevels | src/utils/genPkgUsedInfoTree.ts:147-156 | nodes produced by a scan carry no references, so an expanded tree ends at its third level |
| GenPkgUsedInfoTree.GetPkgsUsedInfoTree | src/utils/genPkgUsedInfoTree.ts:183-187 | There is one tree per package, in order, keyed by the package. Its import sites are those of the allow-filtered scan, each given the unfiltered scan of its own file. The trees have at most three levels |
| LegacyIndex.GetPackageUsedInfoTree | index.ts:123-161 | Without an allow-list every matching declaration yields a node listing all its named imports, in file then declaration order. At each site, the listed names are among its imports. Every export that one of its imports reaches is listed with that import's name. Every listed (export, name) pair comes from an import of that name that reaches the export. The scan succeeds when every export site is named, and otherwise fails only on an unnamed export node |
| LegacyIndex.EveryMatchListed | index.ts:127-153 | every declaration naming the target has a node in the older scan |
| LegacyIndex.PageSourceFiles | index.ts:180 | a file is a page file iff it is in the project and its path starts with the page directory |
| LegacyIndex.PackageTrees | index.ts:176 | one tree per package, in order, each the scan for that package; the first failing scan ends the run |
| LegacyIndex.AttachPages | index.ts:193-195 | each import site keeps its fields and gets as references the scan of the page files for its own key |
| LegacyIndex.AttachAll | index.ts:186-196 | every root keeps its fields and has each of its import sites given its page consumers |
| LegacyIndex.AnalyzeEveryPage | index.ts:171-199 | There is one tree per package. Its import sites are the unfiltered scan, each given as references the page files that import the site's file. Those page nodes lie under the page directory and have no references. The run fails only on an unnamed export node |
| LegacyIndex.PageLevel | index.ts:180-195 | the third level of an analysed tree comes only from files under the page directory and ends there |
| LegacyIndex.AnonymousExportThrows | index.ts:94 | a file whose imported name is used only in `export default { a: x }` makes the older scan fail at that export |
| LegacyIndex.AnonymousExportSkipped | src/utils/genPkgUsedInfoTree.ts:89-93 | on the same file the guarded scan lists the import site with an empty export list |
| Statistics.UsedCountOfLeafs | src/utils/statistics.ts:9-33 | an empty tree list gives an empty map, and the keys are exactly the names the top-level nodes mention |
| Statistics.UsedCountOfLeafsIsWeight | src/utils/statistics.ts:14-29 | A name's weight is a sum of per-export contributions, and no contribution is overwritten. Each contribution is the export's multiplier times the name's counts. The multiplier is the aggregate of that node's own references under the export's name, or 1 when that is absent or 0 |
| Statistics.UsedCountOfLeafsConcat | src/utils/statistics.ts:14-19 | siblings do not influence each other: aggregating two groups of siblings together gives the key-wise sum of aggregating them apart |
| Statistics.WeightConservation | src/utils/statistics.ts:14-29 | where every multiplier is 1 the weight of a name is the plain sum of its recorded counts |
| Statistics.LeafNodesCountOnce | src/utils/statistics.ts:15-26 | top-level nodes without references contribute exactly each entry's count, with multiplier 1 |
| Statistics.AssignEntries | src/utils/statistics.ts:46-50 | The keys grow by the entries' names and nothing else changes. When the export's own name is not among the entries, a name takes the incoming multiplier times the count of its last entry |
| Statistics.AssignEntriesLastWins | src/utils/statistics.ts:46-50 | the last entry of a name decides its value: the multiplier as it stood just before that entry (changed by an earlier entry carrying the export's own name) times that entry's count |
| Statistics.AssignExports | src/utils/statistics.ts:45-52 | the keys grow by exactly the names the exports mention and every other key keeps its value |
| Statistics.AssignExportsLastWins | src/utils/statistics.ts:45-52 | the last export mentioning a name decides its value: its entries applied to the log the earlier exports left |
| Statistics.UsedCountByPaths | src/utils/statistics.ts:36-56 | The empty path gives the empty log, and the log's keys are exactly the imported names listed under the exports of the path's nodes. The values are stated by UsedCountByPathsFirstMention |
| Statistics.UsedCountByPathsFirstMention | src/utils/statistics.ts:36-56 | A name is in a path's log iff some node mentions it. Its weight comes from the first node that mentions it: that node's exports applied to the log of the nodes after it; the nodes before it leave the name alone |
| Statistics.AssignExportsOverwrites | src/utils/statistics.ts:49 | assignment, not addition: when a node mentions a name and none of its exports carries that name, the deeper log's value at that name is discarded; logs differing only there give the same result |
| Statistics.SumLogsIsKeywiseSum | src/utils/statistics.ts:113-121 | summing per-path logs gives, per key, the arithmetic sum over the logs, and exactly the union of their keys |
| Statistics.TargetStepKeepsInv | src/utils/statistics.ts:76-79 | closing the current path at a target keeps the search invariant, including that every top-level target is a path of its own |
| Statistics.DescendStepKeepsInv | src/utils/statistics.ts:80-82 | extending the current path at an interior node and pushing its references keeps the search invariant |
| Statistics.DeadEndStepKeepsInv | src/utils/statistics.ts:83-89 | dropping a dead end, and the whole current path when nothing pushed is pending, keeps the search invariant |
| Statistics.CompleteStep | src/utils/statistics.ts:67-90 | one iteration keeps completeness: every target reachable without crossing another target ends a finished path or is still reachable from the stack |
| Statistics.CountStep | src/utils/statistics.ts:67-90 | one iteration keeps the path count: for every target, the finished paths ending in it plus its occurrences still reachable from the stack equal its occurrences in the tree |
| Statistics.Visit | src/utils/statistics.ts:67-90 | one iteration keeps the search invariant, completeness and the path count, and strictly shrinks the forest left on the stack |
| Statistics.UsedInfoTreePathOfTarget | src/utils/statistics.ts:58-95 | Empty input gives no paths. Every path is non-empty and ends in a target, with every earlier node a non-target that has references; targets therefore never get their children pushed. All nodes come from the tree, and every top-level target is a path of its own. The last nodes of the paths are exactly the targets reachable from the top level without crossing another target. Each target ends exactly as many paths as it has routes from the top level that cross no other target. With only targets at the top level the paths are those nodes, last-first |
| Statistics.UsedCountOfPages | src/utils/statistics.ts:97-125 | There is exactly one entry per page directory. Each entry is the key-wise sum of the path logs over that page's paths. Each of those paths ends in a node keyed `<pageDir>/index.tsx` or `<pageDir>/index.ts`. Every such entry reachable without crossing another entry of the page ends as many paths as it has such routes |
| Statistics.PageWeights | src/utils/statistics.ts:108-122 | one page's weights are the key-wise sum of the path logs over the paths the search returns for that page's entries, with the path facts of UsedInfoTreePathOfTarget |
| Statistics.DiamondCountsTwice | src/utils/statistics.ts:58-95 | `a` imports `b` and `c`, and both import the page entry: the entry ends exactly two paths, so its weights are summed twice |

## Left out

- ts-morph is not modelled. Project loading, `getSourceFiles`, `findReferencesAsNodes`, `getModuleSpecifierSourceFile`, `getText` and `getKindName` become inputs: import-declaration records, a reference index from identifier to reference chains, and nodes whose kind is already one of four classes. The "exported" flag of a declaration is an input.
- `formatPath` and `path.relative` are not modelled: paths are opaque strings, already in the formatted form the code compares.
- `fs.readdirSync` in `computeImportVarsUsedCountOfPages` is not modelled: the formatted page directories are a parameter.
- The `console.log` calls are left out. `analyzePkgUsedInfoInEveryPage` prints its result; `LegacyIndex.AnalyzeEveryPage` returns it instead.
- src/demo.ts and src/index.ts are not part of this model. They are file I/O and a thin driver.
- The `__node` handle is left out. It is stripped before output, and no entry of the accumulator ever carries it.
- Reachability.FindExportVars: the restart at a non-exported declaration is cut off by `fuel` and then reports "no export". The source has no bound, and a self-referencing declaration overflows the stack there.
- Statistics.UsedCountOfLeafs: weights are unbounded integers and counts are naturals. JavaScript's floating-point numbers, `NaN` and the 2^53 limit are not modelled.
- Statistics.UsedInfoTreePathOfTarget: the contract does not claim that paths are clean root-to-target chains in a diamond. A path can lose a prefix it shares with an earlier path, and a dead-end node can stay in a path while siblings are pending. "Siblings are visited last-first" is stated only for trees whose top level consists of targets.
- Statistics.UsedCountOfPages: the contract fixes which page entries end the summed paths, and how many paths each ends. It does not fix the order of the paths or their interior nodes, which the path search leaves irregular (see UsedInfoTreePathOfTarget).
- Reachability.ScanRefs: that reached exports are recorded, and that added pairs carry the item's name, is stated for a non-empty imported name only. With an empty name the source falls back to a restarted declaration's own text. The same holds for ScanItems and ExportsOf through the item's name.
- Statistics.AssignExportsOverwrites: the deeper value is discarded only when no export of the node carries the name itself; otherwise that value is the multiplier, as AssignEntriesLastWins states.
- JavaScript objects used as maps are modelled as Dafny maps and sequences. The special keys of object prototypes (`__proto__`, `constructor`) are not modelled, and neither is `Object.values` listing integer-like keys first.
- The arrays of `getPkgUsedInfoTrees` are mutated in place and returned aliased; the model is the equivalent functional rebuild.
- The guards `!pageSourceFiles` and `!references` in index.ts can never fire (a filter always returns an array, and every root has references). They are not modelled.
- The unguarded identifier read of index.ts is modelled as a `Failure` outcome rather than as a precondition. `ExportsNamed(index)` is the condition under which no failure happens.

## Findings

| source | as written | input that shows it | evidently intended | confidence | as-written member | corrected member |
|---|---|---|---|---|---|---|
| index.ts:94 | reads the first identifier child of every reached export site without checking that one exists | a file imports `x` from the target and uses it only in `export default { a: x }`; the export node has no identifier child, the read throws, and the whole analysis is lost | skip such a site and keep scanning, as src/utils/genPkgUsedInfoTree.ts:89-93 later does | medium, not executed | LegacyIndex.AnonymousExportThrows | GenPkgUsedInfoTree.GetPkgUsedInfoTree |

=== FILE: export_table.dfy ===
/** The accumulator shared by one scan of one import declaration
    (`Record<string, ExportsWhoUseThisPkg>`): exported names, in insertion
    order, each with the imported names that reach it. */
module ExportTable {
  import opened Wrappers

  datatype ExportEntry = ExportEntry(exportVarName: string, importVarNames: seq<string>)

  /** `Object.values` of the record: entries in insertion order. */
  type Table = seq<ExportEntry>

  ghost predicate Distinct(s: seq<string>) {
    forall a, b | 0 <= a < b < |s| :: s[a] != s[b]
  }

  /** Keys are unique and no entry lists an imported name twice. */
  ghost predicate WellFormed(t: Table) {
    && (forall a, b | 0 <= a < b < |t| :: t[a].exportVarName != t[b].exportVarName)
    && (forall a | 0 <= a < |t| :: Distinct(t[a].importVarNames))
  }

  ghost function Keys(t: Table): set<string> {
    set e | e in t :: e.exportVarName
  }

  /** Every imported name recorded anywhere in the table. */
  ghost function AllNames(t: Table): set<string> {
    set e, n | e in t && n in e.importVarNames :: n
  }

  /** `r` only adds to `t`: the old entries keep their place and name, and
      their lists are only appended to. */
  ghost predicate Extends(t: Table, r: Table) {
    && |t| <= |r|
    && forall a | 0 <= a < |t| ::
         r[a].exportVarName == t[a].exportVarName && t[a].importVarNames <= r[a].importVarNames
  }

  /** `t` has an entry `exportVarName` listing `importVarName`. */
  ghost predicate Records(t: Table, exportVarName: string, importVarName: string) {
    exists a | 0 <= a < |t| :: t[a].exportVarName == exportVarName && importVarName in t[a].importVarNames
  }

  /** The position of the entry for `name`, if any. */
  function Find(t: Table, name: string): (r: Option<nat>)
    ensures r.Some? ==> r.value < |t| && t[r.value].exportVarName == name
    ensures r.None? ==> name !in Keys(t)
  {
    if t == [] then None
    else if t[|t| - 1].exportVarName == name then Some(|t| - 1)
    else
      var r := Find(t[..|t| - 1], name);
      assert t == t[..|t| - 1] + [t[|t| - 1]];
      r
  }

  /** Everything `Accumulate` promises about its result `r`. */
  ghost predicate AccumulateSpec(t: Table, exportVarName: string, importVarName: string, r: Table) {
    && (WellFormed(t) ==> WellFormed(r))
    && Extends(t, r)
    && Keys(r) == Keys(t) + {exportVarName}
    && AllNames(r) == AllNames(t) + {importVarName}
    && Records(r, exportVarName, importVarName)
    && (forall a | 0 <= a < |t| && t[a].exportVarName != exportVarName :: r[a] == t[a])
    && Change(t, importVarName, r)
    && AddsOnly(t, r, exportVarName, importVarName)
    && (|r| == |t| <==> exportVarName in Keys(t))
  }

  /** The only pair `r` records that `t` does not is `exportVarName`
      listing `importVarName`. */
  ghost predicate AddsOnly(t: Table, r: Table, exportVarName: string, importVarName: string) {
    forall e, n | Records(r, e, n) && !Records(t, e, n) :: e == exportVarName && n == importVarName
  }

  /** The exact change: either one entry gains `importVarName` at the end of
      its list (which did not hold it) and nothing else changes, or a new
      entry listing only `importVarName` is appended, or nothing changes. */
  ghost predicate Change(t: Table, importVarName: string, r: Table) {
    && |t| <= |r| <= |t| + 1
    && (forall a | 0 <= a < |t| && r[a] != t[a] ::
          r[a].importVarNames == t[a].importVarNames + [importVarName] && importVarName !in t[a].importVarNames)
    && (forall a, b | 0 <= a < |t| && 0 <= b < |t| && r[a] != t[a] && r[b] != t[b] :: a == b)
    && (|r| > |t| ==> r[..|t|] == t && r[|t|].importVarNames == [importVarName])
  }

  /** Record that `importVarName` reaches export `exportVarName`: create the
      entry if it is missing, then append the name unless already listed. */
  function Accumulate(t: Table, exportVarName: string, importVarName: string): (r: Table)
    ensures WellFormed(t) ==> WellFormed(r)
    ensures Extends(t, r)
    ensures Keys(r) == Keys(t) + {exportVarName}
    ensures AllNames(r) == AllNames(t) + {importVarName}
    ensures Records(r, exportVarName, importVarName)
    ensures forall a | 0 <= a < |t| && t[a].exportVarName != exportVarName :: r[a] == t[a]
    ensures Change(t, importVarName, r)
    ensures AddsOnly(t, r, exportVarName, importVarName)
    ensures |r| == |t| <==> exportVarName in Keys(t)
  {
    match Find(t, exportVarName)
    case None =>
      AccumulateNew(t, exportVarName, importVarName);
      t + [ExportEntry(exportVarName, [importVarName])]
    case Some(k) =>
      var e := t[k];
      if importVarName in e.importVarNames then
        AccumulateListed(t, k, importVarName);
        t
      else
        AccumulateAppend(t, k, importVarName);
        t[k := e.(importVarNames := e.importVarNames + [importVarName])]
  }

  lemma AccumulateNew(t: Table, exportVarName: string, importVarName: string)
    requires exportVarName !in Keys(t)
    ensures AccumulateSpec(t, exportVarName, importVarName, t + [ExportEntry(exportVarName, [importVarName])])
  {
    var e := ExportEntry(exportVarName, [importVarName]);
    var r := t + [e];
    assert r[|t|] == e && r[..|t|] == t;
    AllNamesAppend(t, e);
    assert (set n | n in e.importVarNames) == {importVarName};
    forall a | 0 <= a < |t| ensures r[a].exportVarName != exportVarName {
      assert t[a] in t;
    }
    AppendAddsOnly(t, e);
    assert Keys(r) == Keys(t) + {exportVarName} by {
      forall x | x in Keys(r) ensures x in Keys(t) + {exportVarName} {
        var y :| y in r && y.exportVarName == x;
        if y != e {
          assert y in t;
        }
      }
      assert e in r;
    }
  }

  lemma AccumulateListed(t: Table, k: nat, importVarName: string)
    requires k < |t| && importVarName in t[k].importVarNames
    ensures AccumulateSpec(t, t[k].exportVarName, importVarName, t)
  {
    assert t[k] in t;
    assert t[k].exportVarName in Keys(t);
  }

  lemma AccumulateAppend(t: Table, k: nat, importVarName: string)
    requires k < |t| && importVarName !in t[k].importVarNames
    ensures var e := t[k];
            AccumulateSpec(t, e.exportVarName, importVarName,
                           t[k := e.(importVarNames := e.importVarNames + [importVarName])])
  {
    var e := t[k];
    var e' := e.(importVarNames := e.importVarNames + [importVarName]);
    var r := t[k := e'];
    assert r[k] == e';
    assert e'.importVarNames[|e.importVarNames|] == importVarName;
    AllNamesUpdate(t, k, e');
    assert (set n | n in e'.importVarNames) == (set n | n in e.importVarNames) + {importVarName};
    assert (set n | n in e.importVarNames) <= AllNames(t) by {
      assert e in t;
    }
    KeysUpdate(t, k, e');
    UpdateAddsOnly(t, k, e', importVarName);
    assert e in t;
    assert e.exportVarName in Keys(t);
    if WellFormed(t) {
      assert Distinct(e'.importVarNames);
    }
  }

  /** Appending an entry adds only that entry's pairs. */
  lemma AppendAddsOnly(t: Table, e: ExportEntry)
    requires |e.importVarNames| == 1
    ensures AddsOnly(t, t + [e], e.exportVarName, e.importVarNames[0])
  {
    var r := t + [e];
    forall x, n | Records(r, x, n) && !Records(t, x, n) ensures x == e.exportVarName && n == e.importVarNames[0] {
      var a :| 0 <= a < |r| && r[a].exportVarName == x && n in r[a].importVarNames;
    }
  }

  /** Updating one entry by appending a name adds only that entry's pairs
      with that name. */
  lemma UpdateAddsOnly(t: Table, k: nat, e: ExportEntry, importVarName: string)
    requires k < |t| && e == t[k].(importVarNames := t[k].importVarNames + [importVarName])
    ensures AddsOnly(t, t[k := e], t[k].exportVarName, importVarName)
  {
    var r := t[k := e];
    forall x, n | Records(r, x, n) && !Records(t, x, n) ensures x == t[k].exportVarName && n == importVarName {
      var a :| 0 <= a < |r| && r[a].exportVarName == x && n in r[a].importVarNames;
    }
  }

  lemma AllNamesAppend(t: Table, e: ExportEntry)
    ensures AllNames(t + [e]) == AllNames(t) + set n | n in e.importVarNames
  {
    var r := t + [e];
    forall n | n in AllNames(r) ensures n in AllNames(t) + set n | n in e.importVarNames {
      var x :| x in r && n in x.importVarNames;
      if x != e {
        assert x in t;
      }
    }
    assert r[|t|] == e;
  }

  lemma AllNamesUpdate(t: Table, k: nat, e: ExportEntry)
    requires k < |t| && t[k].importVarNames <= e.importVarNames
    ensures AllNames(t[k := e]) == AllNames(t) + set n | n in e.importVarNames
  {
    var r := t[k := e];
    forall n | n in AllNames(r) ensures n in AllNames(t) + set n | n in e.importVarNames {
      var x :| x in r && n in x.importVarNames;
      var a :| 0 <= a < |r| && r[a] == x;
      if a != k {
        assert t[a] == x;
      }
    }
    forall n | n in AllNames(t) ensures n in AllNames(r) {
      var x :| x in t && n in x.importVarNames;
      var a :| 0 <= a < |t| && t[a] == x;
      if a == k {
        assert n in e.importVarNames;
        assert r[k] == e;
      } else {
        assert r[a] == x;
      }
    }
    assert r[k] == e;
  }

  lemma KeysUpdate(t: Table, k: nat, e: ExportEntry)
    requires k < |t| && e.exportVarName == t[k].exportVarName
    ensures Keys(t[k := e]) == Keys(t)
  {
    var r := t[k := e];
    forall x | x in Keys(r) ensures x in Keys(t) {
      var y :| y in r && y.exportVarName == x;
      var a :| 0 <= a < |r| && r[a] == y;
      assert t[a] in t;
    }
    forall x | x in Keys(t) ensures x in Keys(r) {
      var y :| y in t && y.exportVarName == x;
      var a :| 0 <= a < |t| && t[a] == y;
      assert r[a] in r;
    }
  }

  lemma ExtendsTransitive(t: Table, u: Table, v: Table)
    requires Extends(t, u) && Extends(u, v)
    ensures Extends(t, v)
  {
    forall a | 0 <= a < |t| ensures t[a].importVarNames <= v[a].importVarNames {
      var x, y, z := t[a].importVarNames, u[a].importVarNames, v[a].importVarNames;
      assert y[..|x|] == x && z[..|y|] == y;
      assert z[..|x|] == x;
    }
  }

  /** A recorded pair survives every extension of the table. */
  lemma RecordsExtends(t: Table, r: Table, exportVarName: string, importVarName: string)
    requires Records(t, exportVarName, importVarName) && Extends(t, r)
    ensures Records(r, exportVarName, importVarName)
  {
    var a :| 0 <= a < |t| && t[a].exportVarName == exportVarName && importVarName in t[a].importVarNames;
    var i :| 0 <= i < |t[a].importVarNames| && t[a].importVarNames[i] == importVarName;
    assert r[a].importVarNames[i] == importVarName;
  }

  /** Extending a table keeps all its keys. */
  lemma ExtendsKeys(t: Table, r: Table)
    requires Extends(t, r)
    ensures Keys(t) <= Keys(r)
  {
    forall x | x in Keys(t) ensures x in Keys(r) {
      var a :| 0 <= a < |t| && t[a].exportVarName == x;
      assert r[a] in r;
    }
  }
}

=== FILE: gen_pkg_used_info_tree.dfy ===
/** The usage-tree builder of src/utils/genPkgUsedInfoTree.ts: one scan per
    target package, then a second level listing, for each import site, the
    files that in turn import that site's file. */
module GenPkgUsedInfoTree {
  import opened Wrappers
  import opened SourceModel
  import opened Reachability
  import opened ImportScan

  /** getPkgUsedInfoTree: the tree rooted at `packageName` whose references
      are the import sites of every file, filtered by the allow-list. Export
      sites without an identifier are skipped, so the scan cannot fail. */
  function GetPkgUsedInfoTree(packageName: string, files: seq<SourceFile>, allow: seq<string>,
                              index: RefIndex, fuel: nat)
    : (root: UsedNode)
    ensures root.key == packageName && root.importPackageName.None?
    ensures Describes(root.references, Sites(files, packageName, allow), packageName, allow)
    ensures forall j | 0 <= j < |root.references| ::
              ExportsMean(root.references[j], Sites(files, packageName, allow)[j], SkipUnnamed, index, fuel, allow)
  {
    var r := ScanRoot(SkipUnnamed, index, fuel, packageName, files, allow);
    TablesMeaning(r.value.references, Sites(files, packageName, allow), SkipUnnamed, index, fuel, allow);
    r.value
  }

  /** With a non-empty allow-list every import site lists only allowed named
      imports, and keeps at least one of them or an allowed default import. */
  lemma GetPkgUsedInfoTreeAllowList(packageName: string, files: seq<SourceFile>, allow: seq<string>,
                                    index: RefIndex, fuel: nat)
    requires |allow| > 0
    ensures var root := GetPkgUsedInfoTree(packageName, files, allow, index, fuel);
            && (forall n | n in root.references :: forall x | x in n.namedImports :: x in allow)
            && (forall n | n in root.references :: |n.namedImports| > 0 || n.defaultImport.GetOr("") in allow)
  {
    var root := GetPkgUsedInfoTree(packageName, files, allow, index, fuel);
    AllowListContainment(root.references, Sites(files, packageName, allow), packageName, allow);
  }

  /** The files that import `key`, as the unfiltered scan lists them. */
  function Consumers(key: string, files: seq<SourceFile>, index: RefIndex, fuel: nat): (r: seq<UsedNode>)
    ensures Describes(r, Sites(files, key, []), key, [])
  {
    GetPkgUsedInfoTree(key, files, [], index, fuel).references
  }

  /** The inner loop of getPkgUsedInfoTrees: each reference's own references
      become the consumers of its key. The ensures only expose the elements
      to the proofs about `ExpandTrees`; what expansion means is stated by
      `Expanded` and `ExpandTreesIsShallow`. */
  function Rescan(refs: seq<UsedNode>, files: seq<SourceFile>, index: RefIndex, fuel: nat): (r: seq<UsedNode>)
    ensures |r| == |refs|
    ensures forall j | 0 <= j < |refs| :: r[j] == refs[j].(references := Consumers(refs[j].key, files, index, fuel))
  {
    seq(|refs|, j requires 0 <= j < |refs| => refs[j].(references := Consumers(refs[j].key, files, index, fuel)))
  }

  /** getPkgUsedInfoTrees: for each node with references, first recurse into
      them, then overwrite each reference's references with its consumers.
      Nodes without references are left as they are. */
  function ExpandTrees(nodes: seq<UsedNode>, files: seq<SourceFile>, index: RefIndex, fuel: nat)
    : (r: seq<UsedNode>)
    ensures |r| == |nodes|
    ensures forall i | 0 <= i < |nodes| :: SameExceptReferences(r[i], nodes[i])
    ensures forall i | 0 <= i < |nodes| && nodes[i].references == [] :: r[i] == nodes[i]
    ensures forall i | 0 <= i < |nodes| :: |r[i].references| == |nodes[i].references|
    decreases nodes
  {
    if nodes == [] then []
    else
      var node := nodes[0];
      var head := if |node.references| > 0
                  then node.(references := Rescan(ExpandTrees(node.references, files, index, fuel), files, index, fuel))
                  else node;
      [head] + ExpandTrees(nodes[1..], files, index, fuel)
  }

  /** Rescanning overwrites every reference's references, so it cannot see
      what they were before. */
  lemma RescanIgnoresReferences(a: seq<UsedNode>, b: seq<UsedNode>, files: seq<SourceFile>,
                                index: RefIndex, fuel: nat)
    requires |a| == |b| && forall j | 0 <= j < |a| :: SameExceptReferences(a[j], b[j])
    ensures Rescan(a, files, index, fuel) == Rescan(b, files, index, fuel)
  {
    var ra, rb := Rescan(a, files, index, fuel), Rescan(b, files, index, fuel);
    forall j | 0 <= j < |a| ensures ra[j] == rb[j] {
      assert a[j].key == b[j].key;
    }
  }

  /** The recursion of getPkgUsedInfoTrees has no lasting effect: its result
      is overwritten by the rescan, so one non-recursive pass gives the same
      trees. */
  lemma {:induction false} ExpandTreesIsShallow(nodes: seq<UsedNode>, files: seq<SourceFile>, index: RefIndex, fuel: nat)
    ensures var r := ExpandTrees(nodes, files, index, fuel);
            forall i | 0 <= i < |nodes| ::
              r[i] == if nodes[i].references == [] then nodes[i]
                      else nodes[i].(references := Rescan(nodes[i].references, files, index, fuel))
    decreases nodes
  {
    if nodes != [] {
      var node := nodes[0];
      if |node.references| > 0 {
        RescanIgnoresReferences(ExpandTrees(node.references, files, index, fuel), node.references, files, index, fuel);
      }
      ExpandTreesIsShallow(nodes[1..], files, index, fuel);
      var r := ExpandTrees(nodes, files, index, fuel);
      assert r[1..] == ExpandTrees(nodes[1..], files, index, fuel);
      forall i | 1 <= i < |nodes|
        ensures r[i] == if nodes[i].references == [] then nodes[i]
                        else nodes[i].(references := Rescan(nodes[i].references, files, index, fuel))
      {
        assert r[i] == r[1..][i - 1] && nodes[i] == nodes[1..][i - 1];
      }
    }
  }

  /** One unexpanded tree per package, in order. The ensures only expose
      the elements to the proof of `GetPkgsUsedInfoTree`. */
  function Roots(packageNames: seq<string>, files: seq<SourceFile>, allow: seq<string>, index: RefIndex, fuel: nat)
    : (r: seq<UsedNode>)
    ensures |r| == |packageNames|
    ensures forall i | 0 <= i < |packageNames| :: r[i] == GetPkgUsedInfoTree(packageNames[i], files, allow, index, fuel)
  {
    seq(|packageNames|, i requires 0 <= i < |packageNames| => GetPkgUsedInfoTree(packageNames[i], files, allow, index, fuel))
  }

  /** `n` is `root` with every import site's references replaced by the
      consumers of that site's file. */
  ghost predicate Expanded(n: UsedNode, root: UsedNode, files: seq<SourceFile>, index: RefIndex, fuel: nat) {
    && SameExceptReferences(n, root)
    && |n.references| == |root.references|
    && forall j | 0 <= j < |root.references| ::
         && SameExceptReferences(n.references[j], root.references[j])
         && n.references[j].references == Consumers(root.references[j].key, files, index, fuel)
  }

  /** No node below the second level has references. */
  ghost predicate ThreeLevels(n: UsedNode) {
    forall j, k | 0 <= j < |n.references| && 0 <= k < |n.references[j].references| ::
      n.references[j].references[k].references == []
  }

  lemma ExpandedHasThreeLevels(n: UsedNode, root: UsedNode, files: seq<SourceFile>, index: RefIndex, fuel: nat)
    requires Expanded(n, root, files, index, fuel)
    ensures ThreeLevels(n)
  {
    forall j, k | 0 <= j < |n.references| && 0 <= k < |n.references[j].references|
      ensures n.references[j].references[k].references == []
    {
      var key := root.references[j].key;
      var c := Consumers(key, files, index, fuel);
      assert n.references[j].references == c;
      assert NodeFor(c[k], Sites(files, key, [])[k], key, []);
    }
  }

  /** Every tree getPkgUsedInfoTrees returns is its input expanded once. */
  lemma ExpandTreesExpands(nodes: seq<UsedNode>, files: seq<SourceFile>, index: RefIndex, fuel: nat)
    ensures var r := ExpandTrees(nodes, files, index, fuel);
            forall i | 0 <= i < |nodes| :: Expanded(r[i], nodes[i], files, index, fuel) && ThreeLevels(r[i])
  {
    var r := ExpandTrees(nodes, files, index, fuel);
    ExpandTreesIsShallow(nodes, files, index, fuel);
    forall i | 0 <= i < |nodes| ensures Expanded(r[i], nodes[i], files, index, fuel) && ThreeLevels(r[i]) {
      if nodes[i].references != [] {
        assert r[i].references == Rescan(nodes[i].references, files, index, fuel);
      }
      ExpandedHasThreeLevels(r[i], nodes[i], files, index, fuel);
    }
  }

  /** getPkgsUsedInfoTree: one tree per package, in order. The first level
      is the allow-filtered scan for the package; each of its nodes lists as
      references the unfiltered scan for that node's file; the third level
      has no references, so the trees have at most three levels. */
  function GetPkgsUsedInfoTree(packageNames: seq<string>, files: seq<SourceFile>, allow: seq<string>,
                               index: RefIndex, fuel: nat)
    : (r: seq<UsedNode>)
    ensures |r| == |packageNames|
    ensures forall i | 0 <= i < |r| :: r[i].key == packageNames[i]
    ensures forall i | 0 <= i < |r| ::
              Expanded(r[i], GetPkgUsedInfoTree(packageNames[i], files, allow, index, fuel), files, index, fuel)
    ensures forall i | 0 <= i < |r| :: ThreeLevels(r[i])
  {
    var roots := Roots(packageNames, files, allow, index, fuel);
    ExpandTreesExpands(roots, files, index, fuel);
    ExpandTrees(roots, files, index, fuel)
  }
}

=== FILE: import_scan.dfy ===
/** The import-site scan shared by `getPkgUsedInfoTree`
    (src/utils/genPkgUsedInfoTree.ts) and `getPackageUsedInfoTree`
    (index.ts): every import declaration of every file that names the
    target, as one usage-tree node each, with the exports its names reach. */
module ImportScan {
  import opened Wrappers
  import opened SourceModel
  import opened ExportTable
  import opened Reachability

  /** A node of the usage tree. The root of a scan carries only `key` (the
      target) and `references`; the nodes for import sites carry the rest.
      An absent array is the empty sequence. (index.ts calls the export list
      `exportsWhoUseThisVars`.) */
  datatype UsedNode = UsedNode(key: string, importPackageName: Option<string>, namedImports: seq<string>,
                               defaultImport: Option<string>, exportsWhoUseThisPkg: Table,
                               references: seq<UsedNode>)

  /** `a` and `b` agree on every field but `references`. */
  predicate SameExceptReferences(a: UsedNode, b: UsedNode) {
    a.(references := b.references) == b
  }

  /** The name an import declaration is compared with: its literal
      specifier, unless that differs from the target and the specifier
      resolves to a file, in which case that file's formatted path. */
  function ImportedName(decl: ImportDecl, packageName: string): string {
    if decl.specifier != packageName && decl.resolved.Some? then decl.resolved.value else decl.specifier
  }

  /** A declaration names the target iff its literal specifier is the
      target, or it resolves to a file whose formatted path is the target. */
  function Matches(decl: ImportDecl, packageName: string): (b: bool)
    ensures b <==> decl.specifier == packageName || decl.resolved == Some(packageName)
  {
    ImportedName(decl, packageName) == packageName
  }

  /** `r` is `s` with some elements left out, the rest kept in order. */
  ghost predicate Subsequence<T>(r: seq<T>, s: seq<T>)
    decreases |s|
  {
    if r == [] then true
    else if s == [] then false
    else (r[0] == s[0] && Subsequence(r[1..], s[1..])) || Subsequence(r, s[1..])
  }

  /** The named imports whose name is on the allow-list, in their order. */
  function FilterNamed(named: seq<Ident>, allow: seq<string>): (r: seq<Ident>)
    ensures forall x :: x in r <==> x in named && x.text in allow
    ensures |r| <= |named|
  {
    if named == [] then []
    else (if named[0].text in allow then [named[0]] else []) + FilterNamed(named[1..], allow)
  }

  /** The filter is an order-preserving sub-list that keeps every allowed
      occurrence and nothing else. */
  lemma {:induction false} FilterNamedIsSubList(named: seq<Ident>, allow: seq<string>)
    ensures Subsequence(FilterNamed(named, allow), named)
    ensures forall x :: multiset(FilterNamed(named, allow))[x] == if x.text in allow then multiset(named)[x] else 0
  {
    if named != [] {
      FilterNamedIsSubList(named[1..], allow);
      var rest := FilterNamed(named[1..], allow);
      assert named == [named[0]] + named[1..];
      assert multiset(named) == multiset([named[0]]) + multiset(named[1..]);
      if named[0].text in allow {
        var r := [named[0]] + rest;
        assert r[0] == named[0] && r[1..] == rest;
        assert multiset(r) == multiset([named[0]]) + multiset(rest);
      } else {
        assert FilterNamed(named, allow) == rest;
        SubsequenceSkip(rest, named);
      }
    }
  }

  lemma SubsequenceSkip<T>(r: seq<T>, s: seq<T>)
    requires s != [] && Subsequence(r, s[1..])
    ensures Subsequence(r, s)
  {
  }

  /** `defaultImport?.getText()` */
  function DefaultName(decl: ImportDecl): Option<string> {
    if decl.defaultImport.Some? then Some(decl.defaultImport.value.text) else None
  }

  /** The named imports kept: all of them with no (or an empty) allow-list,
      else those on the list. */
  function KeptNamed(decl: ImportDecl, allow: seq<string>): seq<Ident> {
    if |allow| > 0 then FilterNamed(decl.namedImports, allow) else decl.namedImports
  }

  /** With a non-empty allow-list a declaration is skipped when no named
      import is on the list and neither is the default import's text (the
      empty text when there is no default import). */
  predicate Skipped(decl: ImportDecl, allow: seq<string>) {
    |allow| > 0 && FilterNamed(decl.namedImports, allow) == [] && DefaultName(decl).GetOr("") !in allow
  }

  /** The identifiers whose references the export scan of a site follows:
      the kept named imports, then the default import (which is scanned even
      when the allow-list does not name it). */
  function SiteItems(decl: ImportDecl, allow: seq<string>): seq<Ident> {
    KeptNamed(decl, allow) + (if decl.defaultImport.Some? then [decl.defaultImport.value] else [])
  }

  /** A declaration that yields a node. */
  predicate Emits(decl: ImportDecl, packageName: string, allow: seq<string>) {
    Matches(decl, packageName) && !Skipped(decl, allow)
  }

  /** Reference definition of the scan's output positions: every
      (file, declaration) pair that yields a node, in file order and then
      declaration order. */
  ghost function DeclSites(file: SourceFile, decls: seq<ImportDecl>, packageName: string, allow: seq<string>)
    : (r: seq<(SourceFile, ImportDecl)>)
    ensures forall s | s in r :: s.0 == file && s.1 in decls && Emits(s.1, packageName, allow)
  {
    if decls == [] then []
    else (if Emits(decls[0], packageName, allow) then [(file, decls[0])] else [])
         + DeclSites(file, decls[1..], packageName, allow)
  }

  ghost function Sites(files: seq<SourceFile>, packageName: string, allow: seq<string>)
    : (r: seq<(SourceFile, ImportDecl)>)
    ensures forall s | s in r :: s.0 in files && s.1 in s.0.imports && Emits(s.1, packageName, allow)
  {
    if files == [] then []
    else DeclSites(files[0], files[0].imports, packageName, allow) + Sites(files[1..], packageName, allow)
  }

  /** Every declaration that yields a node has a position in the scan's
      output. */
  lemma {:induction false} SitesComplete(files: seq<SourceFile>, packageName: string, allow: seq<string>)
    ensures forall f, d | f in files && d in f.imports && Emits(d, packageName, allow) ::
              (f, d) in Sites(files, packageName, allow)
    decreases files
  {
    if files != [] {
      SitesComplete(files[1..], packageName, allow);
      DeclSitesComplete(files[0], files[0].imports, packageName, allow);
      forall f, d | f in files && d in f.imports && Emits(d, packageName, allow)
        ensures (f, d) in Sites(files, packageName, allow)
      {
        if f != files[0] {
          assert f in files[1..];
        }
      }
    }
  }

  lemma {:induction false} DeclSitesComplete(file: SourceFile, decls: seq<ImportDecl>, packageName: string, allow: seq<string>)
    ensures forall d | d in decls && Emits(d, packageName, allow) :: (file, d) in DeclSites(file, decls, packageName, allow)
    decreases decls
  {
    if decls != [] {
      DeclSitesComplete(file, decls[1..], packageName, allow);
      forall d | d in decls && Emits(d, packageName, allow)
        ensures (file, d) in DeclSites(file, decls, packageName, allow)
      {
        if d != decls[0] {
          assert d in decls[1..];
        }
      }
    }
  }

  /** The node pushed for site `s`: keyed by the importing file, naming the
      target, listing the kept named imports and the default import, with a
      well-formed export table and no references yet. */
  ghost predicate NodeFor(n: UsedNode, s: (SourceFile, ImportDecl), packageName: string, allow: seq<string>) {
    && n.key == s.0.path
    && n.importPackageName == Some(packageName)
    && n.namedImports == Texts(KeptNamed(s.1, allow))
    && n.defaultImport == DefaultName(s.1)
    && WellFormed(n.exportsWhoUseThisPkg)
    && n.references == []
  }

  ghost predicate Describes(nodes: seq<UsedNode>, sites: seq<(SourceFile, ImportDecl)>,
                            packageName: string, allow: seq<string>) {
    |nodes| == |sites| && forall j | 0 <= j < |nodes| :: NodeFor(nodes[j], sites[j], packageName, allow)
  }

  /** The export scan of one import site: its items in the importing file. */
  function SiteScan(policy: NamePolicy, index: RefIndex, fuel: nat, allow: seq<string>)
    : ((SourceFile, ImportDecl)) -> Result<Table, ScanError>
  {
    (s: (SourceFile, ImportDecl)) => ExportsOf(policy, index, s.0.path, SiteItems(s.1, allow), fuel)
  }

  /** Each node's export list is what `scan` gives for its site. */
  ghost predicate TablesFor(nodes: seq<UsedNode>, sites: seq<(SourceFile, ImportDecl)>,
                            scan: ((SourceFile, ImportDecl)) -> Result<Table, ScanError>) {
    |nodes| == |sites| && forall j | 0 <= j < |nodes| :: scan(sites[j]) == Success(nodes[j].exportsWhoUseThisPkg)
  }

  /** The node's export list is the export scan of the site's items. */
  ghost predicate TableOf(n: UsedNode, s: (SourceFile, ImportDecl), policy: NamePolicy,
                          index: RefIndex, fuel: nat, allow: seq<string>) {
    SiteScan(policy, index, fuel, allow)(s) == Success(n.exportsWhoUseThisPkg)
  }

  /** What an import site's export list means. Take the site's items and
      follow their references in the importing file. Every export one of them
      reaches is recorded under that item's name. Every export listed is
      reached by one of them, and every name an export lists is the name of
      an item that reaches it (any name, for an item with empty text, whose
      restarts record a declaration's text); so when no item's text is
      empty, only item names are listed. */
  ghost predicate ExportsMean(n: UsedNode, s: (SourceFile, ImportDecl), policy: NamePolicy,
                              index: RefIndex, fuel: nat, allow: seq<string>) {
    var items := SiteItems(s.1, allow);
    var t := n.exportsWhoUseThisPkg;
    && WellFormed(t)
    && ((forall it | it in items :: it.text != "") ==> AllNames(t) <= set it | it in items :: it.text)
    && (forall it | it in items && it.text != "" ::
          RecordsReached(policy, index, s.0.path, LocalRefs(index, s.0.path, it.id), t, it.text, fuel))
    && (forall e | e in Keys(t) ::
          exists it | it in items :: AnyReaches(policy, index, s.0.path, LocalRefs(index, s.0.path, it.id), e, fuel))
    && (forall e, name | Records(t, e, name) ::
          exists it | it in items ::
            ListedAs(it.text, name) && AnyReaches(policy, index, s.0.path, LocalRefs(index, s.0.path, it.id), e, fuel))
  }

  lemma TableMeaning(n: UsedNode, s: (SourceFile, ImportDecl), policy: NamePolicy,
                     index: RefIndex, fuel: nat, allow: seq<string>)
    requires SiteScan(policy, index, fuel, allow)(s) == Success(n.exportsWhoUseThisPkg)
    ensures ExportsMean(n, s, policy, index, fuel, allow)
  {
    assert ExportsOf(policy, index, s.0.path, SiteItems(s.1, allow), fuel) == Success(n.exportsWhoUseThisPkg);
  }

  /** The export lists of a whole scan, site by site. */
  lemma TablesMeaning(nodes: seq<UsedNode>, sites: seq<(SourceFile, ImportDecl)>, policy: NamePolicy,
                      index: RefIndex, fuel: nat, allow: seq<string>)
    requires TablesFor(nodes, sites, SiteScan(policy, index, fuel, allow))
    ensures forall j | 0 <= j < |nodes| :: ExportsMean(nodes[j], sites[j], policy, index, fuel, allow)
  {
    forall j | 0 <= j < |nodes| ensures ExportsMean(nodes[j], sites[j], policy, index, fuel, allow) {
      TableMeaning(nodes[j], sites[j], policy, index, fuel, allow);
    }
  }

  lemma TablesConcat(a: seq<UsedNode>, s: seq<(SourceFile, ImportDecl)>, b: seq<UsedNode>, t: seq<(SourceFile, ImportDecl)>,
                     scan: ((SourceFile, ImportDecl)) -> Result<Table, ScanError>)
    requires TablesFor(a, s, scan) && TablesFor(b, t, scan)
    ensures TablesFor(a + b, s + t, scan)
  {
    forall j | 0 <= j < |a + b| ensures scan((s + t)[j]) == Success((a + b)[j].exportsWhoUseThisPkg) {
      if j >= |a| {
        assert (a + b)[j] == b[j - |a|] && (s + t)[j] == t[j - |a|];
      }
    }
  }

  lemma DescribesConcat(a: seq<UsedNode>, s: seq<(SourceFile, ImportDecl)>,
                        b: seq<UsedNode>, t: seq<(SourceFile, ImportDecl)>, packageName: string, allow: seq<string>)
    requires Describes(a, s, packageName, allow) && Describes(b, t, packageName, allow)
    ensures Describes(a + b, s + t, packageName, allow)
  {
    forall j | 0 <= j < |a + b| ensures NodeFor((a + b)[j], (s + t)[j], packageName, allow) {
      if j >= |a| {
        assert (a + b)[j] == b[j - |a|] && (s + t)[j] == t[j - |a|];
      }
    }
  }

  /** The body of the loop over one file's declarations: the node for one
      declaration, or none when it does not name the target or the
      allow-list skips it. The export table is scanned from the kept named
      imports and the default import (which is scanned even when it is not
      on the allow-list). */
  function SiteNode(policy: NamePolicy, index: RefIndex, fuel: nat, file: SourceFile, decl: ImportDecl,
                    packageName: string, allow: seq<string>)
    : (r: Result<Option<UsedNode>, ScanError>)
    ensures r.Success? ==> (r.value.Some? <==> Emits(decl, packageName, allow))
    ensures r.Success? && r.value.Some? ==> NodeFor(r.value.value, (file, decl), packageName, allow)
    ensures r.Success? && r.value.Some? ==> TableOf(r.value.value, (file, decl), policy, index, fuel, allow)
    ensures Safe(policy, index) ==> r.Success?
    ensures r.Failure? ==> Thrown(policy, r.error)
  {
    if !Emits(decl, packageName, allow) then Success(None)
    else
      var named := KeptNamed(decl, allow);
      var exports :- ExportsOf(policy, index, file.path, SiteItems(decl, allow), fuel);
      Success(Some(UsedNode(file.path, Some(packageName), Texts(named), DefaultName(decl), exports, [])))
  }

  function ScanDecls(policy: NamePolicy, index: RefIndex, fuel: nat, file: SourceFile, decls: seq<ImportDecl>,
                     packageName: string, allow: seq<string>)
    : (r: Result<seq<UsedNode>, ScanError>)
    ensures r.Success? ==> Describes(r.value, DeclSites(file, decls, packageName, allow), packageName, allow)
    ensures r.Success? ==> TablesFor(r.value, DeclSites(file, decls, packageName, allow), SiteScan(policy, index, fuel, allow))
    ensures Safe(policy, index) ==> r.Success?
    ensures r.Failure? ==> Thrown(policy, r.error)
  {
    if decls == [] then Success([])
    else
      var site :- SiteNode(policy, index, fuel, file, decls[0], packageName, allow);
      var rest :- ScanDecls(policy, index, fuel, file, decls[1..], packageName, allow);
      var here := if site.Some? then [site.value] else [];
      DescribesConcat(here, if Emits(decls[0], packageName, allow) then [(file, decls[0])] else [],
                      rest, DeclSites(file, decls[1..], packageName, allow), packageName, allow);
      TablesConcat(here, if Emits(decls[0], packageName, allow) then [(file, decls[0])] else [],
                   rest, DeclSites(file, decls[1..], packageName, allow), SiteScan(policy, index, fuel, allow));
      Success(here + rest)
  }

  /** The nested loops of the scan over all files. */
  function ScanFiles(policy: NamePolicy, index: RefIndex, fuel: nat, files: seq<SourceFile>,
                     packageName: string, allow: seq<string>)
    : (r: Result<seq<UsedNode>, ScanError>)
    ensures r.Success? ==> Describes(r.value, Sites(files, packageName, allow), packageName, allow)
    ensures r.Success? ==> TablesFor(r.value, Sites(files, packageName, allow), SiteScan(policy, index, fuel, allow))
    ensures Safe(policy, index) ==> r.Success?
    ensures r.Failure? ==> Thrown(policy, r.error)
  {
    if files == [] then Success([])
    else
      var first :- ScanDecls(policy, index, fuel, files[0], files[0].imports, packageName, allow);
      var rest :- ScanFiles(policy, index, fuel, files[1..], packageName, allow);
      DescribesConcat(first, DeclSites(files[0], files[0].imports, packageName, allow),
                      rest, Sites(files[1..], packageName, allow), packageName, allow);
      TablesConcat(first, DeclSites(files[0], files[0].imports, packageName, allow),
                   rest, Sites(files[1..], packageName, allow), SiteScan(policy, index, fuel, allow));
      Success(first + rest)
  }

  /** The tree a scan returns: the target as root, the import sites as its
      references. */
  function ScanRoot(policy: NamePolicy, index: RefIndex, fuel: nat, packageName: string,
                    files: seq<SourceFile>, allow: seq<string>)
    : (r: Result<UsedNode, ScanError>)
    ensures r.Success? ==> r.value.key == packageName && r.value.importPackageName.None?
    ensures r.Success? ==> Describes(r.value.references, Sites(files, packageName, allow), packageName, allow)
    ensures r.Success? ==> TablesFor(r.value.references, Sites(files, packageName, allow), SiteScan(policy, index, fuel, allow))
    ensures Safe(policy, index) ==> r.Success?
    ensures r.Failure? ==> Thrown(policy, r.error)
  {
    var references :- ScanFiles(policy, index, fuel, files, packageName, allow);
    Success(UsedNode(packageName, None, [], None, [], references))
  }

  /** Allow-list containment: with a non-empty allow-list, every node lists
      only allowed named imports, and has at least one of them or an allowed
      default-import text. */
  lemma AllowListContainment(nodes: seq<UsedNode>, sites: seq<(SourceFile, ImportDecl)>,
                             packageName: string, allow: seq<string>)
    requires |allow| > 0
    requires forall s | s in sites :: Emits(s.1, packageName, allow)
    requires Describes(nodes, sites, packageName, allow)
    ensures forall n | n in nodes :: forall x | x in n.namedImports :: x in allow
    ensures forall n | n in nodes :: |n.namedImports| > 0 || n.defaultImport.GetOr("") in allow
  {
    forall n | n in nodes
      ensures (forall x | x in n.namedImports :: x in allow)
      ensures |n.namedImports| > 0 || n.defaultImport.GetOr("") in allow
    {
      var j :| 0 <= j < |nodes| && nodes[j] == n;
      var d := sites[j].1;
      assert sites[j] in sites;
      var kept := FilterNamed(d.namedImports, allow);
      forall x | x in n.namedImports ensures x in allow {
        var k :| 0 <= k < |kept| && Texts(kept)[k] == x;
        assert kept[k] in kept;
      }
      if |n.namedImports| == 0 {
        assert kept == [];
      }
    }
  }
}

=== FILE: legacy_index.dfy ===
/** The earlier, page-oriented analysis of index.ts: the same import-site
    scan without an allow-list and with the unguarded read of export names,
    followed by a second level drawn only from the files under a page
    directory. */
module LegacyIndex {
  import opened Wrappers
  import opened SourceModel
  import opened Reachability
  import opened ImportScan
  import opened Sequences
  import GenPkgUsedInfoTree

  /** getPackageUsedInfoTree: every import declaration that names the target
      yields a node listing all its named imports. The scan throws exactly
      when it reaches an export site without an identifier child. */
  function GetPackageUsedInfoTree(files: seq<SourceFile>, packageName: string, index: RefIndex, fuel: nat)
    : (r: Result<UsedNode, ScanError>)
    ensures r.Success? ==> r.value.key == packageName && r.value.importPackageName.None?
    ensures r.Success? ==> Describes(r.value.references, Sites(files, packageName, []), packageName, [])
    ensures r.Success? ==> forall j | 0 <= j < |r.value.references| ::
              r.value.references[j].namedImports == Texts(Sites(files, packageName, [])[j].1.namedImports)
    ensures r.Success? ==> forall j | 0 <= j < |r.value.references| ::
              ExportsMean(r.value.references[j], Sites(files, packageName, [])[j], ThrowOnUnnamed, index, fuel, [])
    ensures ExportsNamed(index) ==> r.Success?
    ensures r.Failure? ==> Thrown(ThrowOnUnnamed, r.error)
  {
    var r := ScanRoot(ThrowOnUnnamed, index, fuel, packageName, files, []);
    if r.Success? then
      TablesMeaning(r.value.references, Sites(files, packageName, []), ThrowOnUnnamed, index, fuel, []);
      r
    else r
  }

  /** Without an allow-list nothing is skipped: every declaration naming the
      target has a node. */
  lemma {:induction false} EveryMatchListed(files: seq<SourceFile>, packageName: string)
    ensures forall f, d | f in files && d in f.imports && Matches(d, packageName) ::
              (f, d) in Sites(files, packageName, [])
  {
    SitesComplete(files, packageName, []);
  }

  /** The files whose path starts with the page directory, in project
      order. */
  function PageSourceFiles(files: seq<SourceFile>, pageDir: string): (r: seq<SourceFile>)
    ensures forall f :: f in r <==> f in files && pageDir <= f.path
    ensures |r| <= |files|
  {
    if files == [] then []
    else (if pageDir <= files[0].path then [files[0]] else []) + PageSourceFiles(files[1..], pageDir)
  }

  /** `packageNames.map(getPackageUsedInfoTree)`: the first throw ends it. */
  function PackageTrees(packageNames: seq<string>, files: seq<SourceFile>, index: RefIndex, fuel: nat)
    : (r: Result<seq<UsedNode>, ScanError>)
    ensures r.Success? ==> |r.value| == |packageNames|
    ensures r.Success? ==> forall i | 0 <= i < |packageNames| ::
              GetPackageUsedInfoTree(files, packageNames[i], index, fuel) == Success(r.value[i])
    ensures ExportsNamed(index) ==> r.Success?
    ensures r.Failure? ==> Thrown(ThrowOnUnnamed, r.error)
  {
    if packageNames == [] then Success([])
    else
      var first :- GetPackageUsedInfoTree(files, packageNames[0], index, fuel);
      var rest :- PackageTrees(packageNames[1..], files, index, fuel);
      ConsIndex(first, rest);
      Success([first] + rest)
  }

  /** `n` is import site `site` with its references replaced by the page
      files that import the site's file. */
  ghost predicate PageAttached(n: UsedNode, site: UsedNode, pageFiles: seq<SourceFile>, index: RefIndex, fuel: nat) {
    var t := GetPackageUsedInfoTree(pageFiles, site.key, index, fuel);
    SameExceptReferences(n, site) && t.Success? && n.references == t.value.references
  }

  /** The inner loop: each import site's references become the page files
      that import the site's file. */
  function AttachPages(refs: seq<UsedNode>, pageFiles: seq<SourceFile>, index: RefIndex, fuel: nat)
    : (r: Result<seq<UsedNode>, ScanError>)
    ensures r.Success? ==> |r.value| == |refs|
    ensures r.Success? ==> forall j | 0 <= j < |refs| :: PageAttached(r.value[j], refs[j], pageFiles, index, fuel)
    ensures ExportsNamed(index) ==> r.Success?
    ensures r.Failure? ==> Thrown(ThrowOnUnnamed, r.error)
  {
    if refs == [] then Success([])
    else
      var tree :- GetPackageUsedInfoTree(pageFiles, refs[0].key, index, fuel);
      var rest :- AttachPages(refs[1..], pageFiles, index, fuel);
      var head := refs[0].(references := tree.references);
      assert PageAttached(head, refs[0], pageFiles, index, fuel);
      ConsIndex(head, rest);
      Success([head] + rest)
  }

  /** `n` is `root` with every import site given its page consumers. */
  ghost predicate RootAttached(n: UsedNode, root: UsedNode, pageFiles: seq<SourceFile>, index: RefIndex, fuel: nat) {
    && SameExceptReferences(n, root)
    && |n.references| == |root.references|
    && forall j | 0 <= j < |root.references| :: PageAttached(n.references[j], root.references[j], pageFiles, index, fuel)
  }

  /** The outer loop over the package trees. */
  function AttachAll(roots: seq<UsedNode>, pageFiles: seq<SourceFile>, index: RefIndex, fuel: nat)
    : (r: Result<seq<UsedNode>, ScanError>)
    ensures r.Success? ==> |r.value| == |roots|
    ensures r.Success? ==> forall i | 0 <= i < |roots| :: RootAttached(r.value[i], roots[i], pageFiles, index, fuel)
    ensures ExportsNamed(index) ==> r.Success?
    ensures r.Failure? ==> Thrown(ThrowOnUnnamed, r.error)
  {
    if roots == [] then Success([])
    else
      var refs :- AttachPages(roots[0].references, pageFiles, index, fuel);
      var rest :- AttachAll(roots[1..], pageFiles, index, fuel);
      var head := roots[0].(references := refs);
      assert RootAttached(head, roots[0], pageFiles, index, fuel);
      ConsIndex(head, rest);
      Success([head] + rest)
  }

  /** The third level of a tree comes only from files under `pageDir`, and
      ends there. */
  ghost predicate PagesOnly(n: UsedNode, pageDir: string) {
    forall j, k | 0 <= j < |n.references| && 0 <= k < |n.references[j].references| ::
      && pageDir <= n.references[j].references[k].key
      && n.references[j].references[k].references == []
  }

  /** analyzePkgUsedInfoInEveryPage without the project loading and the
      printing: one tree per package, whose import sites list as references
      the page files (those under `pageDir`) that import the site's file;
      those page nodes have no references of their own. */
  function AnalyzeEveryPage(packageNames: seq<string>, files: seq<SourceFile>, pageDir: string,
                            index: RefIndex, fuel: nat)
    : (r: Result<seq<UsedNode>, ScanError>)
    ensures r.Success? ==> |r.value| == |packageNames|
    ensures r.Success? ==> forall i | 0 <= i < |packageNames| ::
              var t := GetPackageUsedInfoTree(files, packageNames[i], index, fuel);
              && t.Success?
              && r.value[i].key == packageNames[i]
              && RootAttached(r.value[i], t.value, PageSourceFiles(files, pageDir), index, fuel)
    ensures r.Success? ==> forall i | 0 <= i < |r.value| :: PagesOnly(r.value[i], pageDir)
    ensures ExportsNamed(index) ==> r.Success?
    ensures r.Failure? ==> Thrown(ThrowOnUnnamed, r.error)
  {
    var roots :- PackageTrees(packageNames, files, index, fuel);
    var pageFiles := PageSourceFiles(files, pageDir);
    var r :- AttachAll(roots, pageFiles, index, fuel);
    PageLevels(roots, r, pageFiles, pageDir, index, fuel);
    Success(r)
  }

  lemma PageLevels(roots: seq<UsedNode>, r: seq<UsedNode>, pageFiles: seq<SourceFile>, pageDir: string,
                   index: RefIndex, fuel: nat)
    requires forall f | f in pageFiles :: pageDir <= f.path
    requires |r| == |roots|
    requires forall i | 0 <= i < |roots| :: RootAttached(r[i], roots[i], pageFiles, index, fuel)
    ensures forall i | 0 <= i < |r| :: PagesOnly(r[i], pageDir)
  {
    forall i | 0 <= i < |r| ensures PagesOnly(r[i], pageDir) {
      PageLevel(r[i], roots[i], pageFiles, pageDir, index, fuel);
    }
  }

  /** The consumers attached to an import site are page files, which get no
      references of their own. */
  lemma PageLevel(n: UsedNode, root: UsedNode, pageFiles: seq<SourceFile>, pageDir: string,
                  index: RefIndex, fuel: nat)
    requires forall f | f in pageFiles :: pageDir <= f.path
    requires RootAttached(n, root, pageFiles, index, fuel)
    ensures PagesOnly(n, pageDir)
  {
    forall j, k | 0 <= j < |n.references| && 0 <= k < |n.references[j].references|
      ensures pageDir <= n.references[j].references[k].key
      ensures n.references[j].references[k].references == []
    {
      var key := root.references[j].key;
      var t := GetPackageUsedInfoTree(pageFiles, key, index, fuel);
      assert PageAttached(n.references[j], root.references[j], pageFiles, index, fuel);
      assert t.Success? && n.references[j].references == t.value.references;
      var sites := Sites(pageFiles, key, []);
      assert NodeFor(t.value.references[k], sites[k], key, []);
      assert sites[k] in sites;
    }
  }

  // A default export of an object literal has no identifier child: the
  // unguarded read throws on it and loses the whole analysis, while the
  // guarded scan of src/utils/genPkgUsedInfoTree.ts lists the import site
  // with no exports.

  /** `export default { a: x }`, the export site reached from `x`. */
  function AnonymousSite(): AstNode {
    AstNode(3, Export, None, "export default { a: x }")
  }

  /** One file importing `x` from `pkg` and using it only in that export. */
  function AnonymousFiles(): seq<SourceFile> {
    [SourceFile("src/a.ts", [ImportDecl("pkg", None, [Ident(1, "x")], None)])]
  }

  function AnonymousIndex(): RefIndex {
    map[1 := [Ref("src/a.ts", AstNode(2, Other, Some("x"), "x"), [AnonymousSite()])]]
  }

  lemma AnonymousExportThrows()
    ensures GetPackageUsedInfoTree(AnonymousFiles(), "pkg", AnonymousIndex(), 1)
            == Failure(MissingExportIdentifier(AnonymousSite()))
  {
    var site, file, index := AnonymousSite(), AnonymousFiles()[0], AnonymousIndex();
    var use := AstNode(2, Other, Some("x"), "x");
    var refs := [Ref("src/a.ts", use, [site])];
    assert SameFile(ReferencesOf(index, 1), "src/a.ts") == refs;
    assert FindExportVars(ThrowOnUnnamed, index, "src/a.ts", use, [site], [], "x", 1) == Success((Some(site), []));
    assert ScanRefs(ThrowOnUnnamed, index, "src/a.ts", refs, [], "x", 1) == Failure(MissingExportIdentifier(site));
    assert ExportsOf(ThrowOnUnnamed, index, "src/a.ts", [Ident(1, "x")], 1) == Failure(MissingExportIdentifier(site));
    assert [Ident(1, "x")] + [] == [Ident(1, "x")];
    assert ScanDecls(ThrowOnUnnamed, index, 1, file, file.imports, "pkg", []) == Failure(MissingExportIdentifier(site));
  }

  /** The guarded scan of the fixture's only item records nothing. */
  lemma AnonymousItemRecordsNothing()
    ensures ExportsOf(SkipUnnamed, AnonymousIndex(), "src/a.ts", [Ident(1, "x")], 1) == Success([])
  {
    var site, index := AnonymousSite(), AnonymousIndex();
    var use := AstNode(2, Other, Some("x"), "x");
    var refs := [Ref("src/a.ts", use, [site])];
    assert SameFile(ReferencesOf(index, 1), "src/a.ts") == refs;
    assert FindExportVars(SkipUnnamed, index, "src/a.ts", use, [site], [], "x", 1) == Success((Some(site), []));
    assert ScanRefs(SkipUnnamed, index, "src/a.ts", refs, [], "x", 1) == Success([]);
  }

  lemma AnonymousExportSkipped()
    ensures GenPkgUsedInfoTree.GetPkgUsedInfoTree("pkg", AnonymousFiles(), [], AnonymousIndex(), 1).references
            == [UsedNode("src/a.ts", Some("pkg"), ["x"], None, [], [])]
  {
    var file, index := AnonymousFiles()[0], AnonymousIndex();
    var decl := file.imports[0];
    AnonymousItemRecordsNothing();
    assert Emits(decl, "pkg", []) && KeptNamed(decl, []) == [Ident(1, "x")];
    assert Texts([Ident(1, "x")]) == ["x"];
    assert [Ident(1, "x")] + [] == [Ident(1, "x")];
    var node := UsedNode("src/a.ts", Some("pkg"), ["x"], None, [], []);
    assert SiteNode(SkipUnnamed, index, 1, file, decl, "pkg", []) == Success(Some(node));
    assert file.imports[1..] == [];
    assert ScanDecls(SkipUnnamed, index, 1, file, file.imports[1..], "pkg", []) == Success([]);
    assert (if Some(node).Some? then [node] else []) + [] == [node];
    assert ScanDecls(SkipUnnamed, index, 1, file, file.imports, "pkg", []) == Success([node]);
    assert AnonymousFiles()[1..] == [];
  }
}

=== FILE: reachability.dfy ===
/** Export reachability: for the names one import declaration brings into a
    file, which exports of that file use them (`findExportVars` and
    `getExportsWhoUseThisPkg` in src/utils/genPkgUsedInfoTree.ts, and their
    copies `findExportVars` / `getExportsWhoUseThisVars` in index.ts).

    The two copies differ only in how an export site's name is read: the
    first skips a site without an identifier child, the second reads it
    unguarded and throws. `NamePolicy` selects between them.

    A non-exported local declaration restarts the scan from that
    declaration's own references; nothing in the source stops a declaration
    that references itself from recursing forever, so the scan carries a
    `fuel` bound and reports "no export" when it runs out. */
module Reachability {
  import opened Wrappers
  import opened SourceModel
  import opened ExportTable

  datatype NamePolicy =
    | SkipUnnamed     // `getChildrenOfKind(Identifier)[0]?.getText()`, then `if (!exportVarName) continue`
    | ThrowOnUnnamed  // `getChildrenOfKind(Identifier)[0].getText()`

  /** The TypeError thrown when an export site has no identifier child. */
  datatype ScanError = MissingExportIdentifier(site: AstNode)

  /** A scan that cannot throw: the guarded policy, or every export site in
      the index named. */
  ghost predicate Safe(policy: NamePolicy, index: RefIndex) {
    policy == SkipUnnamed || ExportsNamed(index)
  }

  /** The only error a scan raises: the unguarded read of an export site
      that has no identifier child. */
  ghost predicate Thrown(policy: NamePolicy, e: ScanError) {
    policy == ThrowOnUnnamed && IsExportNode(e.site) && e.site.firstIdentifier.None?
  }

  /** The name recorded for an item: the propagated name, unless that is
      absent or empty, in which case the item's own text. */
  function ResolvedName(importVarName: Option<string>, item: Ident): string {
    if importVarName.None? || importVarName.value == "" then item.text else importVarName.value
  }

  /** The names a scan of `items` may record. */
  ghost function ItemNames(items: seq<Ident>, importVarName: Option<string>): set<string> {
    set it | it in items :: ResolvedName(importVarName, it)
  }

  /** Index of the first node of a chain that is not of kind `Other`: the
      node at which the upward walk stops. */
  function FirstClassified(chain: seq<AstNode>): (k: Option<nat>)
    ensures k.Some? ==> k.value < |chain| && !chain[k.value].kind.Other?
                        && forall j | 0 <= j < k.value :: chain[j].kind.Other?
    ensures k.None? ==> forall j | 0 <= j < |chain| :: chain[j].kind.Other?
  {
    if chain == [] then None
    else if !chain[0].kind.Other? then Some(0)
    else
      match FirstClassified(chain[1..])
      case None => None
      case Some(k) => Some(k + 1)
  }

  /** The chain a reference's upward walk visits: the node, then its
      ancestors, nearest first. */
  function Chain(x: Ref): seq<AstNode> {
    [x.node] + x.ancestors
  }

  /** The node at which the walk up `chain` stops, if any. */
  function StopNode(chain: seq<AstNode>): (r: Option<AstNode>)
    ensures r.Some? ==> r.value in chain && !r.value.kind.Other?
  {
    match FirstClassified(chain)
    case None => None
    case Some(k) => Some(chain[k])
  }

  /** The export site the walk returns: its stop node, when that is one. */
  function ExportSite(chain: seq<AstNode>): (r: Option<AstNode>)
    ensures r.Some? ==> r.value in chain && IsExportNode(r.value)
  {
    match StopNode(chain)
    case None => None
    case Some(n) => if IsExportNode(n) then Some(n) else None
  }

  /** The walk restarts: it stops at a non-exported declaration and fuel
      remains. */
  predicate Restarts(chain: seq<AstNode>, fuel: nat) {
    match StopNode(chain)
    case None => false
    case Some(n) => n.kind == Decl(false) && fuel > 0
  }

  /** The references of an identifier that lie in `file`. */
  function LocalRefs(index: RefIndex, file: string, id: int): seq<Ref> {
    SameFile(ReferencesOf(index, id), file)
  }

  /** An export site whose name the policy records: it has an identifier
      child, and under the guard that identifier is not empty. */
  predicate Recordable(policy: NamePolicy, n: AstNode) {
    n.firstIdentifier.Some? && (policy.ThrowOnUnnamed? || n.firstIdentifier.value != "")
  }

  /** Reference definition of reachability: the walk up `chain` reaches the
      export named `e`, either because it stops at a recordable export site
      of that name, or because it stops at a non-exported declaration one of
      whose references in `file` reaches `e` with one unit of fuel less. */
  ghost predicate Reaches(policy: NamePolicy, index: RefIndex, file: string, chain: seq<AstNode>,
                          e: string, fuel: nat)
    decreases fuel, 0
  {
    match StopNode(chain)
    case None => false
    case Some(n) =>
      if IsExportNode(n) then Recordable(policy, n) && n.firstIdentifier.value == e
      else n.kind == Decl(false) && fuel > 0 && AnyReaches(policy, index, file, LocalRefs(index, file, n.id), e, fuel - 1)
  }

  /** Some reference of `refs` reaches the export named `e`. */
  ghost predicate AnyReaches(policy: NamePolicy, index: RefIndex, file: string, refs: seq<Ref>,
                             e: string, fuel: nat)
    decreases fuel, 1
  {
    exists x | x in refs :: Reaches(policy, index, file, Chain(x), e, fuel)
  }

  /** Every export a reference of `refs` reaches is recorded in `t` under `name`. */
  ghost predicate RecordsReached(policy: NamePolicy, index: RefIndex, file: string, refs: seq<Ref>,
                                 t: Table, name: string, fuel: nat) {
    forall x, e | x in refs && Reaches(policy, index, file, Chain(x), e, fuel) :: Records(t, e, name)
  }

  /** Every key `t` has beyond those of `acc` is reached by a reference of `refs`. */
  ghost predicate OnlyReached(policy: NamePolicy, index: RefIndex, file: string, refs: seq<Ref>,
                              acc: Table, t: Table, fuel: nat) {
    forall e | e in Keys(t) && e !in Keys(acc) :: AnyReaches(policy, index, file, refs, e, fuel)
  }

  /** A pair listing `n` may come from a scan under `name`: the two agree,
      unless `name` is empty, in which case a restart records the text of
      the declaration it restarts from. */
  predicate ListedAs(name: string, n: string) {
    name == "" || n == name
  }

  /** Every pair `t` records beyond those of `acc` lists `name` (as
      `ListedAs` allows) under an export a reference of `refs` reaches. */
  ghost predicate OnlyPairsReached(policy: NamePolicy, index: RefIndex, file: string, refs: seq<Ref>,
                                   acc: Table, t: Table, name: string, fuel: nat) {
    forall e, n | Records(t, e, n) && !Records(acc, e, n) ::
      ListedAs(name, n) && AnyReaches(policy, index, file, refs, e, fuel)
  }

  /** `RecordsReached` for the references of every item, under the name the
      item is scanned with (when that name is not empty). */
  ghost predicate ItemsRecorded(policy: NamePolicy, index: RefIndex, file: string, items: seq<Ident>,
                                t: Table, importVarName: Option<string>, fuel: nat) {
    forall it | it in items && ResolvedName(importVarName, it) != "" ::
      RecordsReached(policy, index, file, LocalRefs(index, file, it.id), t, ResolvedName(importVarName, it), fuel)
  }

  /** Every key `t` has beyond those of `acc` is reached from some item. */
  ghost predicate ItemsOnlyReached(policy: NamePolicy, index: RefIndex, file: string, items: seq<Ident>,
                                   acc: Table, t: Table, fuel: nat) {
    forall e | e in Keys(t) && e !in Keys(acc) ::
      exists it | it in items :: AnyReaches(policy, index, file, LocalRefs(index, file, it.id), e, fuel)
  }

  /** Every pair `t` records beyond those of `acc` lists the name of an
      item whose references reach the pair's export. */
  ghost predicate ItemsPairsReached(policy: NamePolicy, index: RefIndex, file: string, items: seq<Ident>,
                                    acc: Table, t: Table, importVarName: Option<string>, fuel: nat) {
    forall e, n | Records(t, e, n) && !Records(acc, e, n) ::
      exists it | it in items ::
        ListedAs(ResolvedName(importVarName, it), n) && AnyReaches(policy, index, file, LocalRefs(index, file, it.id), e, fuel)
  }

  /** After a restart, every export the declaration's references reach is
      recorded under `importVarName`. */
  ghost predicate RestartRecorded(policy: NamePolicy, index: RefIndex, file: string, chain: seq<AstNode>,
                                  t: Table, importVarName: string, fuel: nat) {
    match StopNode(chain)
    case None => true
    case Some(n) =>
      n.kind == Decl(false) && fuel > 0 ==>
        RecordsReached(policy, index, file, LocalRefs(index, file, n.id), t, importVarName, fuel - 1)
  }

  /** Every key `t` has beyond those of `acc` is reached by the walk up `chain`. */
  ghost predicate NewKeysReached(policy: NamePolicy, index: RefIndex, file: string, chain: seq<AstNode>,
                                 acc: Table, t: Table, fuel: nat) {
    forall e | e in Keys(t) && e !in Keys(acc) :: Reaches(policy, index, file, chain, e, fuel)
  }

  /** Every pair `t` records beyond those of `acc` lists `name` (as
      `ListedAs` allows) under an export the walk up `chain` reaches. */
  ghost predicate NewPairsReached(policy: NamePolicy, index: RefIndex, file: string, chain: seq<AstNode>,
                                  acc: Table, t: Table, name: string, fuel: nat) {
    forall e, n | Records(t, e, n) && !Records(acc, e, n) ::
      ListedAs(name, n) && Reaches(policy, index, file, chain, e, fuel)
  }

  /** The body of `if (exportDeclaration)`: read the site's exported name
      and record the imported name under it. */
  function RecordExport(policy: NamePolicy, acc: Table, site: Option<AstNode>, importVarName: string)
    : (r: Result<Table, ScanError>)
    ensures r.Failure? <==> site.Some? && policy.ThrowOnUnnamed? && site.value.firstIdentifier.None?
    ensures r.Failure? ==> r.error == MissingExportIdentifier(site.value)
    ensures r.Success? ==> (WellFormed(acc) ==> WellFormed(r.value)) && Extends(acc, r.value)
    ensures r.Success? ==> AllNames(r.value) <= AllNames(acc) + {importVarName}
    ensures r.Success? && site.Some? && Recordable(policy, site.value) ==>
              Records(r.value, site.value.firstIdentifier.value, importVarName)
    ensures r.Success? ==>
              r.value == acc
              || (site.Some? && Recordable(policy, site.value)
                  && Keys(r.value) == Keys(acc) + {site.value.firstIdentifier.value}
                  && AddsOnly(acc, r.value, site.value.firstIdentifier.value, importVarName))
    ensures r.Success? && (site.None? || (policy == SkipUnnamed && site.value.firstIdentifier.GetOr("") == "")) ==>
              r.value == acc
  {
    if site.None? then Success(acc)
    else
      match site.value.firstIdentifier
      case None =>
        (match policy
         case SkipUnnamed => Success(acc)
         case ThrowOnUnnamed => Failure(MissingExportIdentifier(site.value)))
      case Some(exportVarName) =>
        if policy == SkipUnnamed && exportVarName == "" then Success(acc)
        else Success(Accumulate(acc, exportVarName, importVarName))
  }

  /** findExportVars: walk from a referencing node up through its ancestors.
      A type or import node stops with no export; an export node, or a
      declaration marked exported, is the export site; a non-exported
      declaration restarts the scan from its own references with the same
      imported name and yields no site itself (the records it creates never
      carry `__node`); any other node defers to its parent, and the root
      yields no export. */
  function FindExportVars(policy: NamePolicy, index: RefIndex, file: string, node: AstNode,
                          ancestors: seq<AstNode>, acc: Table, importVarName: string, fuel: nat)
    : (r: Result<(Option<AstNode>, Table), ScanError>)
    ensures r.Success? ==> (WellFormed(acc) ==> WellFormed(r.value.1)) && Extends(acc, r.value.1)
    ensures r.Success? && importVarName != "" ==> AllNames(r.value.1) <= AllNames(acc) + {importVarName}
    ensures r.Success? ==> r.value.0 == ExportSite([node] + ancestors)
    ensures r.Success? && !Restarts([node] + ancestors, fuel) ==> r.value.1 == acc
    ensures r.Success? && importVarName != "" ==>
              RestartRecorded(policy, index, file, [node] + ancestors, r.value.1, importVarName, fuel)
    ensures r.Success? ==> NewKeysReached(policy, index, file, [node] + ancestors, acc, r.value.1, fuel)
    ensures r.Success? ==> NewPairsReached(policy, index, file, [node] + ancestors, acc, r.value.1, importVarName, fuel)
    ensures Safe(policy, index) ==> r.Success?
    ensures r.Failure? ==> Thrown(policy, r.error)
    decreases fuel, 0, |ancestors|
  {
    match node.kind
    case TypeOrImport =>
      StopNodeHere(node, ancestors);
      Success((None, acc))
    case Export =>
      StopNodeHere(node, ancestors);
      Success((Some(node), acc))
    case Decl(exported) =>
      StopNodeHere(node, ancestors);
      if exported then Success((Some(node), acc))
      else if fuel == 0 then Success((None, acc))
      else
        var scanned :- ScanItems(policy, index, file, [Ident(node.id, node.text)], acc, Some(importVarName), fuel - 1);
        assert importVarName != "" ==> ItemNames([Ident(node.id, node.text)], Some(importVarName)) == {importVarName};
        RestartStep(policy, index, file, node, ancestors, acc, scanned, importVarName, fuel);
        Success((None, scanned))
    case Other =>
      StopNodeSkip(node, ancestors);
      if ancestors == [] then Success((None, acc))
      else
        var r := FindExportVars(policy, index, file, ancestors[0], ancestors[1..], acc, importVarName, fuel);
        assert ancestors == [ancestors[0]] + ancestors[1..];
        SameStop(policy, index, file, [node] + ancestors, ancestors, fuel);
        r
  }

  /** The loop over the references of one item. */
  function ScanRefs(policy: NamePolicy, index: RefIndex, file: string, refs: seq<Ref>,
                    acc: Table, importVarName: string, fuel: nat)
    : (r: Result<Table, ScanError>)
    ensures r.Success? ==> (WellFormed(acc) ==> WellFormed(r.value)) && Extends(acc, r.value)
    ensures r.Success? && importVarName != "" ==> AllNames(r.value) <= AllNames(acc) + {importVarName}
    ensures r.Success? && importVarName != "" ==> RecordsReached(policy, index, file, refs, r.value, importVarName, fuel)
    ensures r.Success? ==> OnlyReached(policy, index, file, refs, acc, r.value, fuel)
    ensures r.Success? ==> OnlyPairsReached(policy, index, file, refs, acc, r.value, importVarName, fuel)
    ensures (policy == SkipUnnamed || (ExportsNamed(index) && RefsNamed(refs))) ==> r.Success?
    ensures r.Failure? ==> Thrown(policy, r.error)
    decreases fuel, 1, |refs|
  {
    if refs == [] then Success(acc)
    else
      var found :- FindExportVars(policy, index, file, refs[0].node, refs[0].ancestors, acc, importVarName, fuel);
      var recorded :- RecordExport(policy, found.1, found.0, importVarName);
      assert RefsNamed(refs) ==> RefsNamed(refs[1..]) by {
        if RefsNamed(refs) {
          forall x, n | x in refs[1..] && n in [x.node] + x.ancestors
            ensures IsExportNode(n) ==> n.firstIdentifier.Some?
          {
            assert x in refs;
          }
        }
      }
      assert RefsNamed(refs) && found.0.Some? ==> found.0.value.firstIdentifier.Some? by {
        assert refs[0] in refs;
      }
      var r := ScanRefs(policy, index, file, refs[1..], recorded, importVarName, fuel);
      ExtendsTransitive(acc, found.1, recorded);
      if r.Success? then
        ExtendsTransitive(acc, recorded, r.value);
        ScanRefsStep(policy, index, file, refs, acc, found, recorded, r.value, importVarName, fuel);
        ScanRefsPairsStep(policy, index, file, refs, acc, found, recorded, r.value, importVarName, fuel);
        r
      else r
  }

  /** getExportsWhoUseThisPkg: for each item, scan its references in `file`
      under the propagated import name, or under its own text when none is
      propagated, threading one accumulator through all items. */
  function ScanItems(policy: NamePolicy, index: RefIndex, file: string, items: seq<Ident>,
                     acc: Table, importVarName: Option<string>, fuel: nat)
    : (r: Result<Table, ScanError>)
    ensures r.Success? ==> (WellFormed(acc) ==> WellFormed(r.value)) && Extends(acc, r.value)
    ensures r.Success? && (forall it | it in items :: ResolvedName(importVarName, it) != "") ==>
              AllNames(r.value) <= AllNames(acc) + ItemNames(items, importVarName)
    ensures r.Success? ==> ItemsRecorded(policy, index, file, items, r.value, importVarName, fuel)
    ensures r.Success? ==> ItemsOnlyReached(policy, index, file, items, acc, r.value, fuel)
    ensures r.Success? ==> ItemsPairsReached(policy, index, file, items, acc, r.value, importVarName, fuel)
    ensures Safe(policy, index) ==> r.Success?
    ensures r.Failure? ==> Thrown(policy, r.error)
    decreases fuel, 2, |items|
  {
    if items == [] then Success(acc)
    else
      var item := items[0];
      var refs := LocalRefs(index, file, item.id);
      assert ExportsNamed(index) ==> RefsNamed(refs) by {
        if ExportsNamed(index) && item.id in index {
          assert RefsNamed(index[item.id]);
        }
      }
      var scanned :- ScanRefs(policy, index, file, refs, acc, ResolvedName(importVarName, item), fuel);
      var r := ScanItems(policy, index, file, items[1..], scanned, importVarName, fuel);
      assert items[0] in items;
      assert ItemNames(items, importVarName) == {ResolvedName(importVarName, item)} + ItemNames(items[1..], importVarName) by {
        assert items == [item] + items[1..];
      }
      if r.Success? then
        ExtendsTransitive(acc, scanned, r.value);
        ScanItemsStep(policy, index, file, items, acc, scanned, r.value, importVarName, fuel);
        ScanItemsPairsStep(policy, index, file, items, acc, scanned, r.value, importVarName, fuel);
        r
      else r
  }

  /** The export table of one import declaration: `Object.values` of a scan
      of its items with a fresh accumulator and no propagated name. */
  function ExportsOf(policy: NamePolicy, index: RefIndex, file: string, items: seq<Ident>, fuel: nat)
    : (r: Result<Table, ScanError>)
    ensures r.Success? ==> WellFormed(r.value)
    ensures r.Success? && (forall it | it in items :: it.text != "") ==>
              AllNames(r.value) <= set it | it in items :: it.text
    ensures r.Success? ==> forall it | it in items && it.text != "" ::
              RecordsReached(policy, index, file, LocalRefs(index, file, it.id), r.value, it.text, fuel)
    ensures r.Success? ==> forall e | e in Keys(r.value) ::
              exists it | it in items :: AnyReaches(policy, index, file, LocalRefs(index, file, it.id), e, fuel)
    ensures r.Success? ==> forall e, n | Records(r.value, e, n) ::
              exists it | it in items ::
                ListedAs(it.text, n) && AnyReaches(policy, index, file, LocalRefs(index, file, it.id), e, fuel)
    ensures Safe(policy, index) ==> r.Success?
    ensures r.Failure? ==> Thrown(policy, r.error)
  {
    assert forall e, n :: !Records([], e, n);
    assert (forall it | it in items :: it.text != "") ==> ItemNames(items, None) == set it | it in items :: it.text;
    assert Keys([]) == {};
    ScanItems(policy, index, file, items, [], None, fuel)
  }

  /** The walk stops at the first node of the chain that is not `Other` and
      decides by that node alone: what lies above it does not matter, and a
      chain of `Other` nodes yields no export. */
  lemma {:induction false} FindExportVarsFirstClassified(policy: NamePolicy, index: RefIndex, file: string,
                                                          node: AstNode, ancestors: seq<AstNode>, acc: Table,
                                                          importVarName: string, fuel: nat)
    ensures var r := FindExportVars(policy, index, file, node, ancestors, acc, importVarName, fuel);
            var chain := [node] + ancestors;
            match FirstClassified(chain)
            case None => r == Success((None, acc))
            case Some(k) => r == FindExportVars(policy, index, file, chain[k], [], acc, importVarName, fuel)
    decreases |ancestors|
  {
    var chain := [node] + ancestors;
    assert chain[0] == node && chain[1..] == ancestors;
    if !node.kind.Other? {
      assert FirstClassified(chain) == Some(0);
    } else if ancestors == [] {
      assert FirstClassified(chain) == None;
    } else {
      FindExportVarsFirstClassified(policy, index, file, ancestors[0], ancestors[1..], acc, importVarName, fuel);
      assert [ancestors[0]] + ancestors[1..] == ancestors;
      assert FindExportVars(policy, index, file, node, ancestors, acc, importVarName, fuel)
             == FindExportVars(policy, index, file, ancestors[0], ancestors[1..], acc, importVarName, fuel);
      match FirstClassified(ancestors)
      case None =>
        assert FirstClassified(chain) == None;
      case Some(k) =>
        assert FirstClassified(chain) == Some(k + 1) && chain[k + 1] == ancestors[k];
    }
  }

  lemma StopNodeHere(node: AstNode, ancestors: seq<AstNode>)
    requires !node.kind.Other?
    ensures StopNode([node] + ancestors) == Some(node)
  {
    assert ([node] + ancestors)[0] == node;
  }

  lemma StopNodeSkip(node: AstNode, ancestors: seq<AstNode>)
    requires node.kind.Other?
    ensures StopNode([node] + ancestors) == if ancestors == [] then None else StopNode(ancestors)
  {
    var chain := [node] + ancestors;
    assert chain[0] == node && chain[1..] == ancestors;
    match FirstClassified(ancestors)
    case None =>
    case Some(k) =>
      assert chain[k + 1] == ancestors[k];
  }

  /** Reachability depends on a chain only through its stop node. */
  lemma SameStop(policy: NamePolicy, index: RefIndex, file: string, c1: seq<AstNode>, c2: seq<AstNode>, fuel: nat)
    requires StopNode(c1) == StopNode(c2)
    ensures forall e :: Reaches(policy, index, file, c1, e, fuel) <==> Reaches(policy, index, file, c2, e, fuel)
  {
  }

  /** A recorded reach survives every extension of the table. */
  lemma RecordsReachedExtends(policy: NamePolicy, index: RefIndex, file: string, refs: seq<Ref>,
                              t: Table, r: Table, name: string, fuel: nat)
    requires RecordsReached(policy, index, file, refs, t, name, fuel) && Extends(t, r)
    ensures RecordsReached(policy, index, file, refs, r, name, fuel)
  {
    forall x, e | x in refs && Reaches(policy, index, file, Chain(x), e, fuel) ensures Records(r, e, name) {
      RecordsExtends(t, r, e, name);
    }
  }

  /** What the restart at a non-exported declaration contributes to the
      walk's postcondition. */
  lemma RestartStep(policy: NamePolicy, index: RefIndex, file: string, node: AstNode, ancestors: seq<AstNode>,
                    acc: Table, t: Table, importVarName: string, fuel: nat)
    requires node.kind == Decl(false) && fuel > 0
    requires StopNode([node] + ancestors) == Some(node)
    requires ItemsRecorded(policy, index, file, [Ident(node.id, node.text)], t, Some(importVarName), fuel - 1)
    requires ItemsOnlyReached(policy, index, file, [Ident(node.id, node.text)], acc, t, fuel - 1)
    requires ItemsPairsReached(policy, index, file, [Ident(node.id, node.text)], acc, t, Some(importVarName), fuel - 1)
    ensures importVarName != "" ==> RestartRecorded(policy, index, file, [node] + ancestors, t, importVarName, fuel)
    ensures NewKeysReached(policy, index, file, [node] + ancestors, acc, t, fuel)
    ensures NewPairsReached(policy, index, file, [node] + ancestors, acc, t, importVarName, fuel)
  {
    var it := Ident(node.id, node.text);
    assert it in [it];
    forall e | e in Keys(t) && e !in Keys(acc) ensures Reaches(policy, index, file, [node] + ancestors, e, fuel) {
      var it' :| it' in [it] && AnyReaches(policy, index, file, LocalRefs(index, file, it'.id), e, fuel - 1);
    }
    forall e, n | Records(t, e, n) && !Records(acc, e, n)
      ensures ListedAs(importVarName, n) && Reaches(policy, index, file, [node] + ancestors, e, fuel)
    {
      var it' :| it' in [it] && ListedAs(ResolvedName(Some(importVarName), it'), n)
                 && AnyReaches(policy, index, file, LocalRefs(index, file, it'.id), e, fuel - 1);
    }
  }

  /** One iteration of the loop over an item's references, lifted to the
      whole list: the head's site or restart, and the rest of the loop. */
  lemma ScanRefsStep(policy: NamePolicy, index: RefIndex, file: string, refs: seq<Ref>, acc: Table,
                     found: (Option<AstNode>, Table), recorded: Table, t: Table, importVarName: string, fuel: nat)
    requires refs != []
    requires found.0 == ExportSite(Chain(refs[0]))
    requires Extends(acc, found.1) && Extends(found.1, recorded) && Extends(recorded, t)
    requires importVarName != "" ==> RestartRecorded(policy, index, file, Chain(refs[0]), found.1, importVarName, fuel)
    requires NewKeysReached(policy, index, file, Chain(refs[0]), acc, found.1, fuel)
    requires found.0.Some? && Recordable(policy, found.0.value) ==>
               Records(recorded, found.0.value.firstIdentifier.value, importVarName)
    requires recorded == found.1
             || (found.0.Some? && Recordable(policy, found.0.value)
                 && Keys(recorded) == Keys(found.1) + {found.0.value.firstIdentifier.value})
    requires importVarName != "" ==> RecordsReached(policy, index, file, refs[1..], t, importVarName, fuel)
    requires OnlyReached(policy, index, file, refs[1..], recorded, t, fuel)
    ensures importVarName != "" ==> RecordsReached(policy, index, file, refs, t, importVarName, fuel)
    ensures OnlyReached(policy, index, file, refs, acc, t, fuel)
  {
    var x0 := refs[0];
    assert x0 in refs;
    ExtendsTransitive(found.1, recorded, t);
    if importVarName != "" {
      forall x, e | x in refs && Reaches(policy, index, file, Chain(x), e, fuel)
        ensures Records(t, e, importVarName)
      {
        if x == x0 {
          var n := StopNode(Chain(x0)).value;
          if IsExportNode(n) {
            RecordsExtends(recorded, t, e, importVarName);
          } else {
            assert n.kind == Decl(false) && fuel > 0;
            assert AnyReaches(policy, index, file, LocalRefs(index, file, n.id), e, fuel - 1);
            var y :| y in LocalRefs(index, file, n.id) && Reaches(policy, index, file, Chain(y), e, fuel - 1);
            RecordsExtends(found.1, t, e, importVarName);
          }
        } else {
          assert x in refs[1..];
        }
      }
    }
    ExtendsKeys(found.1, recorded);
    forall e | e in Keys(t) && e !in Keys(acc) ensures AnyReaches(policy, index, file, refs, e, fuel) {
      if e !in Keys(recorded) {
        var y :| y in refs[1..] && Reaches(policy, index, file, Chain(y), e, fuel);
        assert y in refs;
      } else if e !in Keys(found.1) {
        assert Reaches(policy, index, file, Chain(x0), e, fuel);
      } else {
        assert Reaches(policy, index, file, Chain(x0), e, fuel);
      }
    }
  }

  /** The pairs one iteration of the loop over an item's references adds:
      the walk's own (restart) pairs, the one pair recorded at the export
      site, and those of the rest of the loop. */
  lemma ScanRefsPairsStep(policy: NamePolicy, index: RefIndex, file: string, refs: seq<Ref>, acc: Table,
                          found: (Option<AstNode>, Table), recorded: Table, t: Table, importVarName: string, fuel: nat)
    requires refs != []
    requires found.0 == ExportSite(Chain(refs[0]))
    requires NewPairsReached(policy, index, file, Chain(refs[0]), acc, found.1, importVarName, fuel)
    requires recorded == found.1
             || (found.0.Some? && Recordable(policy, found.0.value)
                 && AddsOnly(found.1, recorded, found.0.value.firstIdentifier.value, importVarName))
    requires OnlyPairsReached(policy, index, file, refs[1..], recorded, t, importVarName, fuel)
    ensures OnlyPairsReached(policy, index, file, refs, acc, t, importVarName, fuel)
  {
    var x0 := refs[0];
    assert x0 in refs;
    forall e, n | Records(t, e, n) && !Records(acc, e, n)
      ensures ListedAs(importVarName, n) && AnyReaches(policy, index, file, refs, e, fuel)
    {
      if !Records(recorded, e, n) {
        var y :| y in refs[1..] && Reaches(policy, index, file, Chain(y), e, fuel);
        assert y in refs;
      } else if !Records(found.1, e, n) {
        assert StopNode(Chain(x0)) == found.0;
        assert Reaches(policy, index, file, Chain(x0), e, fuel);
      } else {
        assert Reaches(policy, index, file, Chain(x0), e, fuel);
      }
    }
  }

  /** The pairs of one item of the scan, lifted to the whole item list. */
  lemma ScanItemsPairsStep(policy: NamePolicy, index: RefIndex, file: string, items: seq<Ident>, acc: Table,
                           scanned: Table, t: Table, importVarName: Option<string>, fuel: nat)
    requires items != []
    requires OnlyPairsReached(policy, index, file, LocalRefs(index, file, items[0].id), acc, scanned,
                              ResolvedName(importVarName, items[0]), fuel)
    requires ItemsPairsReached(policy, index, file, items[1..], scanned, t, importVarName, fuel)
    ensures ItemsPairsReached(policy, index, file, items, acc, t, importVarName, fuel)
  {
    var i0 := items[0];
    assert i0 in items;
    forall e, n | Records(t, e, n) && !Records(acc, e, n)
      ensures exists it | it in items ::
                ListedAs(ResolvedName(importVarName, it), n)
                && AnyReaches(policy, index, file, LocalRefs(index, file, it.id), e, fuel)
    {
      if !Records(scanned, e, n) {
        var it :| it in items[1..] && ListedAs(ResolvedName(importVarName, it), n)
                  && AnyReaches(policy, index, file, LocalRefs(index, file, it.id), e, fuel);
        assert it in items;
      }
    }
  }

  /** One item of the scan, lifted to the whole item list. */
  lemma ScanItemsStep(policy: NamePolicy, index: RefIndex, file: string, items: seq<Ident>, acc: Table,
                      scanned: Table, t: Table, importVarName: Option<string>, fuel: nat)
    requires items != []
    requires Extends(acc, scanned) && Extends(scanned, t)
    requires ResolvedName(importVarName, items[0]) != "" ==>
               RecordsReached(policy, index, file, LocalRefs(index, file, items[0].id), scanned,
                              ResolvedName(importVarName, items[0]), fuel)
    requires OnlyReached(policy, index, file, LocalRefs(index, file, items[0].id), acc, scanned, fuel)
    requires ItemsRecorded(policy, index, file, items[1..], t, importVarName, fuel)
    requires ItemsOnlyReached(policy, index, file, items[1..], scanned, t, fuel)
    ensures ItemsRecorded(policy, index, file, items, t, importVarName, fuel)
    ensures ItemsOnlyReached(policy, index, file, items, acc, t, fuel)
  {
    var i0 := items[0];
    assert i0 in items;
    forall it | it in items && ResolvedName(importVarName, it) != ""
      ensures RecordsReached(policy, index, file, LocalRefs(index, file, it.id), t, ResolvedName(importVarName, it), fuel)
    {
      if it == i0 {
        RecordsReachedExtends(policy, index, file, LocalRefs(index, file, i0.id), scanned, t,
                              ResolvedName(importVarName, i0), fuel);
      } else {
        assert it in items[1..];
      }
    }
    forall e | e in Keys(t) && e !in Keys(acc)
      ensures exists it | it in items :: AnyReaches(policy, index, file, LocalRefs(index, file, it.id), e, fuel)
    {
      if e in Keys(scanned) {
        assert AnyReaches(policy, index, file, LocalRefs(index, file, i0.id), e, fuel);
      } else {
        var it :| it in items[1..] && AnyReaches(policy, index, file, LocalRefs(index, file, it.id), e, fuel);
        assert it in items;
      }
    }
  }
}

=== FILE: sequences.dfy ===
/** Small facts about sequences that several modules use. */
module Sequences {
  /** Indexing into a sequence built by putting one element in front. */
  lemma ConsIndex<T>(head: T, rest: seq<T>)
    ensures ([head] + rest)[0] == head
    ensures forall i | 1 <= i < |rest| + 1 :: ([head] + rest)[i] == rest[i - 1]
  {
  }
}

=== FILE: source_model.dfy ===
/** The source model the analysis consumes, standing in for the ts-morph
    project: files with their import declarations, syntax nodes with a
    closed classification of their kind, and the reference lookup. Paths are
    opaque strings, already in the formatted form the analysis compares. */
module SourceModel {
  import opened Wrappers

  /** The classification `findExportVars` makes of a node's kind name, in the
      order it tests them: a kind starting with `type` or `import`; any other
      kind containing `export`; a variable, class or function declaration,
      `exported` when its text starts with `export `; anything else. */
  datatype Kind = TypeOrImport | Export | Decl(exported: bool) | Other

  /** A syntax node: an identity for the reference lookup, its kind, the text
      of its first identifier child if it has one, and its own text. */
  datatype AstNode = AstNode(id: int, kind: Kind, firstIdentifier: Option<string>, text: string)

  /** A node the classification accepts as an export site. */
  predicate IsExportNode(n: AstNode) {
    n.kind.Export? || n.kind == Decl(true)
  }

  /** One result of `findReferencesAsNodes`: the file it lies in, the
      referencing node, and that node's ancestors, nearest first, up to the
      root of its file. */
  datatype Ref = Ref(file: string, node: AstNode, ancestors: seq<AstNode>)

  /** A node whose references can be looked up: an imported name, a default
      import, or a local declaration. */
  datatype Ident = Ident(id: int, text: string)

  /** `findReferencesAsNodes` for every identifier of the project, across all
      files. A declaration may reference itself, so the lookup can cycle. */
  type RefIndex = map<int, seq<Ref>>

  function ReferencesOf(index: RefIndex, id: int): seq<Ref> {
    if id in index then index[id] else []
  }

  /** The references that lie in `file`, in lookup order. */
  function SameFile(refs: seq<Ref>, file: string): (r: seq<Ref>)
    ensures forall x :: x in r <==> x in refs && x.file == file
    ensures |r| <= |refs|
  {
    if refs == [] then []
    else (if refs[0].file == file then [refs[0]] else []) + SameFile(refs[1..], file)
  }

  /** An import declaration: its literal module specifier, the formatted path
      of the file it resolves to (if any), its named imports and its default
      import. The text of a named import is its imported name. */
  datatype ImportDecl = ImportDecl(specifier: string, resolved: Option<string>,
                                   namedImports: seq<Ident>, defaultImport: Option<Ident>)

  datatype SourceFile = SourceFile(path: string, imports: seq<ImportDecl>)

  function Texts(ids: seq<Ident>): (r: seq<string>)
    ensures |r| == |ids| && forall j | 0 <= j < |ids| :: r[j] == ids[j].text
  {
    seq(|ids|, j requires 0 <= j < |ids| => ids[j].text)
  }

  /** Every node the classification would accept as an export site, in a
      list of reference chains, has an identifier child. */
  ghost predicate RefsNamed(refs: seq<Ref>) {
    forall r, n | r in refs && n in [r.node] + r.ancestors :: IsExportNode(n) ==> n.firstIdentifier.Some?
  }

  /** `RefsNamed` for every reference list of the index. */
  ghost predicate ExportsNamed(index: RefIndex) {
    forall id | id in index :: RefsNamed(index[id])
  }
}

=== FILE: statistics.dfy ===
/** Usage-weight aggregation over an already built usage tree, and the
    extraction of root-to-page paths used to scope the weights to one page
    (src/utils/statistics.ts).

    The statistics functions read each export's `importVarNames` as records
    `{ name, usedCount }`, whereas the tree builder declares them as plain
    names and never produces counts; this module therefore has its own node
    type and does not model where the counts come from. */
module Statistics {

  /** One `{ name, usedCount }` record of an export's `importVarNames`. */
  datatype VarCount = VarCount(name: string, usedCount: nat)

  /** An export of a consumer file and the imported names that reach it. */
  datatype ExportUse = ExportUse(exportVarName: string, importVarNames: seq<VarCount>)

  /** A usage-tree node as the statistics read it. An absent
      `exportsWhoUseThisPkg` or `references` is the empty sequence: the source
      treats both the same way as an empty array. */
  datatype StatNode = StatNode(key: string, exportsWhoUseThisPkg: seq<ExportUse>, references: seq<StatNode>)

  /** `CountInfoLog`: imported (or exported) name to weight. */
  type CountLog = map<string, int>

  /** `log[k] || 0` */
  function Get0(log: CountLog, k: string): int {
    if k in log then log[k] else 0
  }

  /** `log[k] || 1`: an absent weight and a zero weight both read as 1. */
  function Multiplier(log: CountLog, k: string): int {
    if k in log && log[k] != 0 then log[k] else 1
  }

  /** The names an entry list mentions. */
  ghost function EntryNames(els: seq<VarCount>): set<string> {
    set el | el in els :: el.name
  }

  /** The names a list of exports mentions. */
  ghost function ExportNames(items: seq<ExportUse>): set<string> {
    set e, el | e in items && el in e.importVarNames :: el.name
  }

  /** The names mentioned by the top-level nodes of a tree (not their references). */
  ghost function TreeNames(tree: seq<StatNode>): set<string> {
    set n, e, el | n in tree && e in n.exportsWhoUseThisPkg && el in e.importVarNames :: el.name
  }

  lemma ExportNamesCons(items: seq<ExportUse>)
    requires items != []
    ensures ExportNames(items) == EntryNames(items[0].importVarNames) + ExportNames(items[1..])
  {
    assert items == [items[0]] + items[1..];
    forall x | x in ExportNames(items)
      ensures x in EntryNames(items[0].importVarNames) + ExportNames(items[1..])
    {
      var e, el :| e in items && el in e.importVarNames && el.name == x;
      if e != items[0] {
        assert e in items[1..];
      }
    }
  }

  lemma TreeNamesCons(tree: seq<StatNode>)
    requires tree != []
    ensures TreeNames(tree) == ExportNames(tree[0].exportsWhoUseThisPkg) + TreeNames(tree[1..])
  {
    assert tree == [tree[0]] + tree[1..];
    forall x | x in TreeNames(tree)
      ensures x in ExportNames(tree[0].exportsWhoUseThisPkg) + TreeNames(tree[1..])
    {
      var n, e, el :| n in tree && e in n.exportsWhoUseThisPkg && el in e.importVarNames && el.name == x;
      if n != tree[0] {
        assert n in tree[1..];
      }
    }
  }

  // ---------------------------------------------------------------------------
  // Whole-tree aggregation (computeImportVarsUsedCountOfLeafs)
  // ---------------------------------------------------------------------------

  /** The inner loop over `item.importVarNames`: add `m * usedCount` to each name. */
  function AddEntries(log: CountLog, m: int, els: seq<VarCount>): CountLog
    decreases |els|
  {
    if els == [] then log
    else
      var el := els[0];
      AddEntries(log[el.name := Get0(log, el.name) + m * el.usedCount], m, els[1..])
  }

  /** The loop over `node.exportsWhoUseThisPkg`, each export weighted by its multiplier. */
  function AddExports(log: CountLog, prevLog: CountLog, items: seq<ExportUse>): CountLog
    decreases |items|
  {
    if items == [] then log
    else
      var item := items[0];
      AddExports(AddEntries(log, Multiplier(prevLog, item.exportVarName), item.importVarNames), prevLog, items[1..])
  }

  /** The loop over sibling nodes; `prevLog` is recomputed for every node from
      that node's own references only. */
  function FoldLeafs(log: CountLog, tree: seq<StatNode>): CountLog
    decreases tree
  {
    if tree == [] then log
    else
      var node := tree[0];
      var prevLog := if |node.references| > 0 then FoldLeafs(map[], node.references) else map[];
      FoldLeafs(AddExports(log, prevLog, node.exportsWhoUseThisPkg), tree[1..])
  }

  /** computeImportVarsUsedCountOfLeafs. */
  function UsedCountOfLeafs(tree: seq<StatNode>): (log: CountLog)
    ensures tree == [] ==> log == map[]
    ensures log.Keys == TreeNames(tree)
  {
    FoldLeafsKeys(map[], tree);
    FoldLeafs(map[], tree)
  }

  /** Sum of `usedCount` over the entries called `name`. */
  function CountOf(els: seq<VarCount>, name: string): nat {
    if els == [] then 0
    else (if els[0].name == name then els[0].usedCount else 0) + CountOf(els[1..], name)
  }

  /** Reference definition of a node's weight for `name`: the sum over its
      exports of the export's multiplier times the counts recorded for `name`. */
  ghost function ExportsWeight(prevLog: CountLog, items: seq<ExportUse>, name: string): int {
    if items == [] then 0
    else Multiplier(prevLog, items[0].exportVarName) * CountOf(items[0].importVarNames, name)
         + ExportsWeight(prevLog, items[1..], name)
  }

  /** Reference definition of the weight of `name` over sibling nodes: a sum
      of per-node contributions, each node's multipliers taken from the
      aggregation of that node's own references. */
  ghost function Weight(tree: seq<StatNode>, name: string): int
    decreases tree
  {
    if tree == [] then 0
    else ExportsWeight(UsedCountOfLeafs(tree[0].references), tree[0].exportsWhoUseThisPkg, name)
         + Weight(tree[1..], name)
  }

  /** Sum of all counts recorded for `name` by the top-level nodes, with no multiplier. */
  ghost function TotalCount(tree: seq<StatNode>, name: string): nat {
    if tree == [] then 0
    else ExportsCount(tree[0].exportsWhoUseThisPkg, name) + TotalCount(tree[1..], name)
  }

  ghost function ExportsCount(items: seq<ExportUse>, name: string): nat {
    if items == [] then 0
    else CountOf(items[0].importVarNames, name) + ExportsCount(items[1..], name)
  }

  /** Every export of every top-level node has multiplier 1: nothing below it
      re-exports with a weight other than 0 or 1. */
  ghost predicate UnitMultipliers(tree: seq<StatNode>) {
    forall n, e | n in tree && e in n.exportsWhoUseThisPkg ::
      Multiplier(UsedCountOfLeafs(n.references), e.exportVarName) == 1
  }

  lemma {:induction false} AddEntriesKeys(log: CountLog, m: int, els: seq<VarCount>)
    ensures AddEntries(log, m, els).Keys == log.Keys + EntryNames(els)
    decreases |els|
  {
    if els != [] {
      var el := els[0];
      AddEntriesKeys(log[el.name := Get0(log, el.name) + m * el.usedCount], m, els[1..]);
      assert els == [el] + els[1..];
      assert EntryNames(els) == {el.name} + EntryNames(els[1..]);
    }
  }

  lemma {:induction false} AddExportsKeys(log: CountLog, prevLog: CountLog, items: seq<ExportUse>)
    ensures AddExports(log, prevLog, items).Keys == log.Keys + ExportNames(items)
    decreases |items|
  {
    if items != [] {
      var item := items[0];
      var m := Multiplier(prevLog, item.exportVarName);
      AddEntriesKeys(log, m, item.importVarNames);
      AddExportsKeys(AddEntries(log, m, item.importVarNames), prevLog, items[1..]);
      ExportNamesCons(items);
    }
  }

  lemma {:induction false} FoldLeafsKeys(log: CountLog, tree: seq<StatNode>)
    ensures FoldLeafs(log, tree).Keys == log.Keys + TreeNames(tree)
    decreases tree
  {
    if tree != [] {
      var node := tree[0];
      var prevLog := if |node.references| > 0 then FoldLeafs(map[], node.references) else map[];
      AddExportsKeys(log, prevLog, node.exportsWhoUseThisPkg);
      FoldLeafsKeys(AddExports(log, prevLog, node.exportsWhoUseThisPkg), tree[1..]);
      TreeNamesCons(tree);
    }
  }

  lemma {:induction false} AddEntriesAdds(log: CountLog, m: int, els: seq<VarCount>, name: string)
    ensures Get0(AddEntries(log, m, els), name) == Get0(log, name) + m * CountOf(els, name)
    decreases |els|
  {
    if els != [] {
      var el := els[0];
      var next := log[el.name := Get0(log, el.name) + m * el.usedCount];
      AddEntriesAdds(next, m, els[1..], name);
      var c := if el.name == name then el.usedCount else 0;
      var rest := CountOf(els[1..], name);
      assert Get0(next, name) == Get0(log, name) + m * c;
      assert CountOf(els, name) == c + rest;
      assert m * (c + rest) == m * c + m * rest;
    }
  }

  lemma {:induction false} AddExportsAdds(log: CountLog, prevLog: CountLog, items: seq<ExportUse>, name: string)
    ensures Get0(AddExports(log, prevLog, items), name) == Get0(log, name) + ExportsWeight(prevLog, items, name)
    decreases |items|
  {
    if items != [] {
      var item := items[0];
      var m := Multiplier(prevLog, item.exportVarName);
      AddEntriesAdds(log, m, item.importVarNames, name);
      AddExportsAdds(AddEntries(log, m, item.importVarNames), prevLog, items[1..], name);
    }
  }

  lemma {:induction false} FoldLeafsAdds(log: CountLog, tree: seq<StatNode>, name: string)
    ensures Get0(FoldLeafs(log, tree), name) == Get0(log, name) + Weight(tree, name)
    decreases tree
  {
    if tree != [] {
      var node := tree[0];
      var prevLog := if |node.references| > 0 then FoldLeafs(map[], node.references) else map[];
      assert prevLog == UsedCountOfLeafs(node.references);
      AddExportsAdds(log, prevLog, node.exportsWhoUseThisPkg, name);
      FoldLeafsAdds(AddExports(log, prevLog, node.exportsWhoUseThisPkg), tree[1..], name);
    }
  }

  /** The aggregated weight of every name is the reference sum: contributions
      of sibling nodes and of a node's exports add up and are never
      overwritten, and each export is weighted by its own children's
      aggregate (1 when that is absent or 0). */
  lemma UsedCountOfLeafsIsWeight(tree: seq<StatNode>, name: string)
    ensures Get0(UsedCountOfLeafs(tree), name) == Weight(tree, name)
  {
    FoldLeafsAdds(map[], tree, name);
  }

  lemma {:induction false} WeightConcat(a: seq<StatNode>, b: seq<StatNode>, name: string)
    ensures Weight(a + b, name) == Weight(a, name) + Weight(b, name)
    decreases a
  {
    if a != [] {
      assert (a + b)[0] == a[0];
      assert (a + b)[1..] == a[1..] + b;
      WeightConcat(a[1..], b, name);
    } else {
      assert a + b == b;
    }
  }

  /** Siblings do not influence each other: aggregating two groups of
      sibling nodes together gives the key-wise sum of aggregating them apart. */
  lemma UsedCountOfLeafsConcat(a: seq<StatNode>, b: seq<StatNode>, name: string)
    ensures Get0(UsedCountOfLeafs(a + b), name)
         == Get0(UsedCountOfLeafs(a), name) + Get0(UsedCountOfLeafs(b), name)
  {
    UsedCountOfLeafsIsWeight(a + b, name);
    UsedCountOfLeafsIsWeight(a, name);
    UsedCountOfLeafsIsWeight(b, name);
    WeightConcat(a, b, name);
  }

  lemma {:induction false} ExportsWeightUnit(prevLog: CountLog, items: seq<ExportUse>, name: string)
    requires forall e | e in items :: Multiplier(prevLog, e.exportVarName) == 1
    ensures ExportsWeight(prevLog, items, name) == ExportsCount(items, name)
    decreases |items|
  {
    if items != [] {
      assert items[0] in items;
      ExportsWeightUnit(prevLog, items[1..], name);
    }
  }

  /** Weight conservation: where no export is multiplied by more than 1, the
      weight of a name is the plain sum of its recorded counts. */
  lemma {:induction false} WeightConservation(tree: seq<StatNode>, name: string)
    requires UnitMultipliers(tree)
    ensures Get0(UsedCountOfLeafs(tree), name) == TotalCount(tree, name)
  {
    UsedCountOfLeafsIsWeight(tree, name);
    WeightIsTotal(tree, name);
  }

  lemma {:induction false} WeightIsTotal(tree: seq<StatNode>, name: string)
    requires UnitMultipliers(tree)
    ensures Weight(tree, name) == TotalCount(tree, name)
  {
    if tree != [] {
      assert tree[0] in tree;
      ExportsWeightUnit(UsedCountOfLeafs(tree[0].references), tree[0].exportsWhoUseThisPkg, name);
      assert UnitMultipliers(tree[1..]) by {
        forall n, e | n in tree[1..] && e in n.exportsWhoUseThisPkg
          ensures Multiplier(UsedCountOfLeafs(n.references), e.exportVarName) == 1
        {
          assert n in tree;
        }
      }
      WeightIsTotal(tree[1..], name);
    }
  }

  /** A tree whose top-level nodes have no references (every node a leaf)
      contributes exactly each entry's `usedCount`, with multiplier 1. */
  lemma LeafNodesCountOnce(tree: seq<StatNode>, name: string)
    requires forall n | n in tree :: n.references == []
    ensures Get0(UsedCountOfLeafs(tree), name) == TotalCount(tree, name)
  {
    assert UnitMultipliers(tree) by {
      forall n, e | n in tree && e in n.exportsWhoUseThisPkg
        ensures Multiplier(UsedCountOfLeafs(n.references), e.exportVarName) == 1
      {
        assert UsedCountOfLeafs(n.references) == map[];
      }
    }
    WeightConservation(tree, name);
  }

  // ---------------------------------------------------------------------------
  // Path-restricted aggregation (computeImportVarsUsedCountByPaths)
  // ---------------------------------------------------------------------------

  /** The `usedCount` of the last entry called `name` (0 when there is none). */
  function LastCount(els: seq<VarCount>, name: string): nat {
    if els == [] then 0
    else if els[|els| - 1].name == name then els[|els| - 1].usedCount
    else LastCount(els[..|els| - 1], name)
  }

  lemma EntryNamesSnoc(els: seq<VarCount>)
    requires els != []
    ensures EntryNames(els) == EntryNames(els[..|els| - 1]) + {els[|els| - 1].name}
  {
    assert els == els[..|els| - 1] + [els[|els| - 1]];
  }

  lemma ExportNamesSnoc(items: seq<ExportUse>)
    requires items != []
    ensures ExportNames(items) == ExportNames(items[..|items| - 1]) + EntryNames(items[|items| - 1].importVarNames)
  {
    var init := items[..|items| - 1];
    assert items == init + [items[|items| - 1]];
    forall x | x in ExportNames(items)
      ensures x in ExportNames(init) + EntryNames(items[|items| - 1].importVarNames)
    {
      var e, el :| e in items && el in e.importVarNames && el.name == x;
      if e != items[|items| - 1] {
        assert e in init;
      }
    }
  }

  /** The position of the last entry called `name`. */
  ghost function LastIndex(els: seq<VarCount>, name: string): (i: nat)
    requires name in EntryNames(els)
    ensures i < |els| && els[i].name == name
    ensures forall j | i < j < |els| :: els[j].name != name
    decreases |els|
  {
    EntryNamesSnoc(els);
    if els[|els| - 1].name == name then |els| - 1
    else LastIndex(els[..|els| - 1], name)
  }

  /** The position of the last export one of whose entries is called `name`. */
  ghost function LastExport(items: seq<ExportUse>, name: string): (p: nat)
    requires name in ExportNames(items)
    ensures p < |items| && name in EntryNames(items[p].importVarNames)
    ensures forall j | p < j < |items| :: name !in EntryNames(items[j].importVarNames)
    decreases |items|
  {
    ExportNamesSnoc(items);
    if name in EntryNames(items[|items| - 1].importVarNames) then |items| - 1
    else LastExport(items[..|items| - 1], name)
  }

  /** The inner loop of the path fold: every entry ASSIGNS
      `(log[exportVarName] || 1) * usedCount`, the multiplier being re-read
      from the current log before each entry. */
  function AssignEntries(log: CountLog, exportVarName: string, els: seq<VarCount>): (r: CountLog)
    ensures r.Keys == log.Keys + EntryNames(els)
    ensures forall k | k in log && k !in EntryNames(els) :: r[k] == log[k]
    ensures exportVarName !in EntryNames(els) ==>
              forall k | k in EntryNames(els) :: r[k] == Multiplier(log, exportVarName) * LastCount(els, k)
    decreases |els|
  {
    if els == [] then log
    else
      var init := els[..|els| - 1];
      var el := els[|els| - 1];
      var before := AssignEntries(log, exportVarName, init);
      EntryNamesSnoc(els);
      before[el.name := Multiplier(before, exportVarName) * el.usedCount]
  }

  /** The last entry of a name decides its value, with the multiplier as it
      stood just before that entry. That multiplier is the incoming one
      unless an earlier entry carries the export's own name, in which case
      it is that entry's value. */
  lemma {:induction false} AssignEntriesLastWins(log: CountLog, exportVarName: string, els: seq<VarCount>, name: string)
    requires name in EntryNames(els)
    ensures AssignEntries(log, exportVarName, els)[name]
            == Multiplier(AssignEntries(log, exportVarName, els[..LastIndex(els, name)]), exportVarName)
               * els[LastIndex(els, name)].usedCount
    decreases |els|
  {
    var init := els[..|els| - 1];
    EntryNamesSnoc(els);
    if els[|els| - 1].name != name {
      AssignEntriesLastWins(log, exportVarName, init, name);
      assert els[..LastIndex(init, name)] == init[..LastIndex(init, name)];
    }
  }

  /** The loop over one node's exports, front to back. */
  function AssignExports(log: CountLog, items: seq<ExportUse>): (r: CountLog)
    decreases |items|
    ensures r.Keys == log.Keys + ExportNames(items)
    ensures forall k | k in log && k !in ExportNames(items) :: r[k] == log[k]
  {
    if items == [] then log
    else
      ExportNamesSnoc(items);
      var last := items[|items| - 1];
      AssignEntries(AssignExports(log, items[..|items| - 1]), last.exportVarName, last.importVarNames)
  }

  /** The last export that mentions a name decides its value: its entries
      are applied to the log the earlier exports left. */
  lemma {:induction false} AssignExportsLastWins(log: CountLog, items: seq<ExportUse>, name: string)
    requires name in ExportNames(items)
    ensures AssignExports(log, items)[name]
            == AssignEntries(AssignExports(log, items[..LastExport(items, name)]),
                             items[LastExport(items, name)].exportVarName,
                             items[LastExport(items, name)].importVarNames)[name]
    decreases |items|
  {
    var init := items[..|items| - 1];
    ExportNamesSnoc(items);
    if name !in EntryNames(items[|items| - 1].importVarNames) {
      AssignExportsLastWins(log, init, name);
      AssignExportsSkipLast(log, items, name);
      LastExportSkipLast(items, name);
    }
  }

  /** An export that does not mention a name does not change its value. */
  lemma AssignExportsSkipLast(log: CountLog, items: seq<ExportUse>, name: string)
    requires items != [] && name !in EntryNames(items[|items| - 1].importVarNames)
    requires name in ExportNames(items[..|items| - 1])
    ensures AssignExports(log, items)[name] == AssignExports(log, items[..|items| - 1])[name]
  {
    ExportNamesSnoc(items);
  }

  /** Nor does it move the name's last mention. */
  lemma LastExportSkipLast(items: seq<ExportUse>, name: string)
    requires items != [] && name !in EntryNames(items[|items| - 1].importVarNames)
    requires name in ExportNames(items[..|items| - 1])
    ensures name in ExportNames(items)
    ensures var p := LastExport(items, name);
            && p == LastExport(items[..|items| - 1], name)
            && items[..p] == items[..|items| - 1][..p] && items[p] == items[..|items| - 1][p]
  {
    ExportNamesSnoc(items);
  }

  /** computeImportVarsUsedCountByPaths: the path is popped from its last node
      to its first, so the first node is folded in last. */
  function UsedCountByPaths(path: seq<StatNode>): (log: CountLog)
    ensures path == [] ==> log == map[]
    ensures log.Keys == TreeNames(path)
  {
    if path == [] then map[]
    else
      TreeNamesCons(path);
      AssignExports(UsedCountByPaths(path[1..]), path[0].exportsWhoUseThisPkg)
  }

  /** Node `i` is the first node of the path whose exports mention `name`. */
  ghost predicate FirstMention(path: seq<StatNode>, i: nat, name: string) {
    && i < |path|
    && name in ExportNames(path[i].exportsWhoUseThisPkg)
    && forall j | 0 <= j < i :: name !in ExportNames(path[j].exportsWhoUseThisPkg)
  }

  /** The weight of a name along a path comes from the first node (nearest
      the root of the path) that mentions it: that node's exports are
      applied to the log of the nodes after it, and whatever the nodes
      before it record leaves the name alone. A name no node mentions is
      absent. */
  lemma {:induction false} UsedCountByPathsFirstMention(path: seq<StatNode>, i: nat, name: string)
    requires i <= |path|
    requires forall j | 0 <= j < i :: name !in ExportNames(path[j].exportsWhoUseThisPkg)
    ensures name in UsedCountByPaths(path) <==> name in UsedCountByPaths(path[i..])
    ensures i == |path| ==> name !in UsedCountByPaths(path)
    ensures FirstMention(path, i, name) ==>
              && name in UsedCountByPaths(path)
              && UsedCountByPaths(path)[name]
                 == AssignExports(UsedCountByPaths(path[i + 1..]), path[i].exportsWhoUseThisPkg)[name]
  {
    if i > 0 {
      assert path[1..][i - 1..] == path[i..];
      UsedCountByPathsFirstMention(path[1..], i - 1, name);
      if i < |path| {
        assert path[1..][i - 1] == path[i] && path[1..][i..] == path[i + 1..];
      }
    } else if i < |path| {
      assert path[i..] == path && path[i + 1..] == path[1..];
    }
  }

  /** Two logs that agree on every name other than `name`. */
  ghost predicate AgreeExcept(a: CountLog, b: CountLog, name: string) {
    forall x | x != name :: (x in a <==> x in b) && (x in a ==> a[x] == b[x])
  }

  lemma {:induction false} AssignEntriesOverwrites(a: CountLog, b: CountLog, exportVarName: string,
                                                   els: seq<VarCount>, name: string)
    requires AgreeExcept(a, b, name) && exportVarName != name
    ensures AgreeExcept(AssignEntries(a, exportVarName, els), AssignEntries(b, exportVarName, els), name)
    ensures name in EntryNames(els) ==> AssignEntries(a, exportVarName, els) == AssignEntries(b, exportVarName, els)
    decreases |els|
  {
    if els != [] {
      var init := els[..|els| - 1];
      var el := els[|els| - 1];
      EntryNamesSnoc(els);
      AssignEntriesOverwrites(a, b, exportVarName, init, name);
      var ba := AssignEntries(a, exportVarName, init);
      var bb := AssignEntries(b, exportVarName, init);
      assert Multiplier(ba, exportVarName) == Multiplier(bb, exportVarName);
      AgreeUpdate(ba, bb, name, el.name, Multiplier(ba, exportVarName) * el.usedCount);
    }
  }

  lemma AgreeUpdate(a: CountLog, b: CountLog, name: string, key: string, v: int)
    requires AgreeExcept(a, b, name)
    ensures AgreeExcept(a[key := v], b[key := v], name)
    ensures key == name ==> a[key := v] == b[key := v]
  {
    if key == name {
      assert a[key := v].Keys == b[key := v].Keys;
    }
  }

  /** Assignment, not addition: when a node's exports mention a name and no
      export of that node carries that name itself, the weight the deeper
      nodes gave the name is discarded. Two incoming logs that differ only
      at that name give the same result. */
  lemma {:induction false} AssignExportsOverwrites(a: CountLog, b: CountLog, items: seq<ExportUse>, name: string)
    requires AgreeExcept(a, b, name)
    requires forall e | e in items :: e.exportVarName != name
    ensures AgreeExcept(AssignExports(a, items), AssignExports(b, items), name)
    ensures name in ExportNames(items) ==> AssignExports(a, items) == AssignExports(b, items)
    decreases |items|
  {
    if items != [] {
      var init := items[..|items| - 1];
      var last := items[|items| - 1];
      ExportNamesSnoc(items);
      AssignExportsOverwrites(a, b, init, name);
      assert last in items;
      AssignEntriesOverwrites(AssignExports(a, init), AssignExports(b, init),
                              last.exportVarName, last.importVarNames, name);
    }
  }

  // ---------------------------------------------------------------------------
  // Summing per-path logs
  // ---------------------------------------------------------------------------

  /** One step of the `reduce`: `acc[k] = (acc[k] || 0) + log[k]` for every key of `log`. */
  function AddLog(acc: CountLog, log: CountLog): CountLog {
    map k | k in acc.Keys + log.Keys :: Get0(acc, k) + Get0(log, k)
  }

  function FoldLogs(acc: CountLog, logs: seq<CountLog>): CountLog
    decreases |logs|
  {
    if logs == [] then acc else FoldLogs(AddLog(acc, logs[0]), logs[1..])
  }

  /** `treePaths.reduce(..., {})` over the per-path logs. */
  function SumLogs(logs: seq<CountLog>): CountLog {
    FoldLogs(map[], logs)
  }

  /** Reference definition: the arithmetic sum of one key over several logs. */
  ghost function SumAt(logs: seq<CountLog>, k: string): int {
    if logs == [] then 0 else Get0(logs[0], k) + SumAt(logs[1..], k)
  }

  ghost function KeysOf(logs: seq<CountLog>): set<string> {
    set j, k | 0 <= j < |logs| && k in logs[j] :: k
  }

  lemma {:induction false} FoldLogsSums(acc: CountLog, logs: seq<CountLog>, k: string)
    ensures Get0(FoldLogs(acc, logs), k) == Get0(acc, k) + SumAt(logs, k)
    ensures FoldLogs(acc, logs).Keys == acc.Keys + KeysOf(logs)
    decreases |logs|
  {
    if logs != [] {
      FoldLogsSums(AddLog(acc, logs[0]), logs[1..], k);
      assert KeysOf(logs) == logs[0].Keys + KeysOf(logs[1..]) by {
        forall x | x in KeysOf(logs) ensures x in logs[0].Keys + KeysOf(logs[1..]) {
          var j :| 0 <= j < |logs| && x in logs[j];
          if j > 0 {
            assert logs[1..][j - 1] == logs[j];
          }
        }
        forall x | x in KeysOf(logs[1..]) ensures x in KeysOf(logs) {
          var j :| 0 <= j < |logs[1..]| && x in logs[1..][j];
          assert logs[j + 1] == logs[1..][j];
        }
      }
    }
  }

  /** Summing per-path logs is the key-wise sum: a name reached along two
      paths of a diamond gets both contributions, and the keys are exactly
      the keys of the summed logs. */
  lemma SumLogsIsKeywiseSum(logs: seq<CountLog>, k: string)
    ensures Get0(SumLogs(logs), k) == SumAt(logs, k)
    ensures SumLogs(logs).Keys == KeysOf(logs)
  {
    FoldLogsSums(map[], logs, k);
  }

  // ---------------------------------------------------------------------------
  // Path extraction (getUsedInfoTreePathOfTarget)
  // ---------------------------------------------------------------------------

  /** Number of nodes in a forest; the measure that bounds the search. */
  function SizeAll(ts: seq<StatNode>): nat
    decreases ts
  {
    if ts == [] then 0 else 1 + SizeAll(ts[0].references) + SizeAll(ts[1..])
  }

  lemma {:induction false} SizeAllConcat(a: seq<StatNode>, b: seq<StatNode>)
    ensures SizeAll(a + b) == SizeAll(a) + SizeAll(b)
  {
    if a != [] {
      assert (a + b)[0] == a[0];
      assert (a + b)[1..] == a[1..] + b;
      SizeAllConcat(a[1..], b);
    } else {
      assert a + b == b;
    }
  }

  /** Every node of a forest, at any depth. */
  ghost function Nodes(ts: seq<StatNode>): set<StatNode>
    decreases ts
  {
    if ts == [] then {} else {ts[0]} + Nodes(ts[0].references) + Nodes(ts[1..])
  }

  lemma {:induction false} TopLevelInNodes(ts: seq<StatNode>)
    ensures forall n | n in ts :: n in Nodes(ts)
  {
    if ts != [] {
      TopLevelInNodes(ts[1..]);
      forall n | n in ts ensures n in Nodes(ts) {
        if n != ts[0] {
          assert n in ts[1..];
        }
      }
    }
  }

  lemma {:induction false} ReferencesInNodes(ts: seq<StatNode>, n: StatNode)
    requires n in Nodes(ts)
    ensures forall c | c in n.references :: c in Nodes(ts)
    decreases ts
  {
    if n == ts[0] {
      TopLevelInNodes(n.references);
    } else if n in Nodes(ts[0].references) {
      ReferencesInNodes(ts[0].references, n);
    } else {
      ReferencesInNodes(ts[1..], n);
    }
  }

  /** A finished path: non-empty, ending in a target, and every earlier node a
      non-target that has references. */
  ghost predicate TargetPath(p: seq<StatNode>, isTarget: StatNode -> bool) {
    && |p| > 0
    && isTarget(p[|p| - 1])
    && forall k | 0 <= k < |p| - 1 :: !isTarget(p[k]) && |p[k].references| > 0
  }

  /** The path under construction: non-targets with references only. */
  ghost predicate OpenPath(p: seq<StatNode>, isTarget: StatNode -> bool) {
    forall k | 0 <= k < |p| :: !isTarget(p[k]) && |p[k].references| > 0
  }

  ghost predicate InForest(paths: seq<seq<StatNode>>, tree: seq<StatNode>) {
    forall j, k | 0 <= j < |paths| && 0 <= k < |paths[j]| :: paths[j][k] in Nodes(tree)
  }

  /** The state of getUsedInfoTreePathOfTarget between two iterations.

      The source keeps one array `paths` and an index `i`; `paths[..i]` are
      the finished paths and `paths[i]`, when it exists, is the path under
      construction (`paths` never has more than `i + 1` entries). Here the two
      parts are `done` and `cur`, with `open` saying whether `paths[i]` exists:
      `i++` closes `cur` into `done`, `paths.pop()` discards it. */
  datatype Search = Search(stack: seq<StatNode>, done: seq<seq<StatNode>>, cur: seq<StatNode>, open: bool, childLens: int)

  /** What holds between iterations. `top` counts the top-level nodes still
      on the stack (they sit below everything pushed later); `childLens`
      counts exactly the pushed nodes above them. */
  ghost predicate SearchInv(tree: seq<StatNode>, isTarget: StatNode -> bool, top: int, s: Search) {
    && 0 <= top <= |tree| && top <= |s.stack| && s.stack[..top] == tree[..top]
    && s.childLens == |s.stack| - top
    && (s.open ==> s.childLens > 0)
    && (!s.open ==> s.cur == [])
    && (forall j | 0 <= j < |s.done| :: TargetPath(s.done[j], isTarget))
    && OpenPath(s.cur, isTarget)
    && (forall n | n in s.stack :: n in Nodes(tree))
    && (forall n | n in s.cur :: n in Nodes(tree))
    && InForest(s.done, tree)
    && (forall j | top <= j < |tree| && isTarget(tree[j]) :: [tree[j]] in s.done)
  }

  /** With only targets at the top level, nothing is ever pushed and every
      popped node becomes a path of its own. */
  ghost predicate AllTargetsInv(tree: seq<StatNode>, top: int, s: Search) {
    && |s.stack| == top && !s.open && |s.done| == |tree| - top
    && forall j | 0 <= j < |s.done| :: s.done[j] == [tree[|tree| - 1 - j]]
  }

  ghost predicate AllTargets(tree: seq<StatNode>, isTarget: StatNode -> bool) {
    forall j | 0 <= j < |tree| :: isTarget(tree[j])
  }

  /** `top` after popping the last node of the stack. */
  ghost function TopAfterPop(s: Search, top: int): int {
    if |s.stack| == top then top - 1 else top
  }

  /** What popping the last node keeps of the invariant, whichever branch
      follows: the stack below it, the count of pushed nodes, and where the
      remaining nodes come from. */
  lemma PopKeepsFrame(tree: seq<StatNode>, stack: seq<StatNode>, childLens: int, top: int)
    requires |stack| > 0 && 0 <= top <= |tree| && top <= |stack| && stack[..top] == tree[..top]
    requires childLens == |stack| - top
    requires forall n | n in stack :: n in Nodes(tree)
    ensures var rest := stack[..|stack| - 1];
            var top' := if |stack| == top then top - 1 else top;
            && 0 <= top' <= |tree| && top' <= |rest| && rest[..top'] == tree[..top']
            && (if childLens <= 0 then 0 else childLens - 1) == |rest| - top'
            && (forall n | n in rest :: n in Nodes(tree))
            && stack[|stack| - 1] in Nodes(tree)
            && (|stack| == top ==> stack[|stack| - 1] == tree[top - 1])
  {
    var node := stack[|stack| - 1];
    var rest := stack[..|stack| - 1];
    assert node in stack;
    forall n | n in rest ensures n in Nodes(tree) {
      var k :| 0 <= k < |rest| && rest[k] == n;
      assert stack[k] == n;
    }
    if |stack| == top {
      assert node == stack[..top][top - 1];
      calc {
        rest[..top - 1];
        stack[..top][..top - 1];
        tree[..top][..top - 1];
        tree[..top - 1];
      }
    } else {
      assert rest[..top] == stack[..top];
    }
  }

  /** The popped node ends a path: `i++`. */
  lemma TargetStepKeepsInv(tree: seq<StatNode>, isTarget: StatNode -> bool, s: Search, top: int)
    requires |s.stack| > 0 && SearchInv(tree, isTarget, top, s)
    requires isTarget(s.stack[|s.stack| - 1])
    ensures SearchInv(tree, isTarget, TopAfterPop(s, top),
                      Search(s.stack[..|s.stack| - 1], s.done + [s.cur + [s.stack[|s.stack| - 1]]], [], false,
                             if s.childLens <= 0 then 0 else s.childLens - 1))
  {
    PopKeepsFrame(tree, s.stack, s.childLens, top);
    var node := s.stack[|s.stack| - 1];
    var top' := TopAfterPop(s, top);
    var path := s.cur + [node];
    var done := s.done + [path];
    assert TargetPath(path, isTarget) by {
      forall k | 0 <= k < |path| - 1 ensures !isTarget(path[k]) && |path[k].references| > 0 {
        assert path[k] == s.cur[k];
      }
    }
    forall j | 0 <= j < |done| ensures TargetPath(done[j], isTarget) {
      if j < |s.done| {
        assert done[j] == s.done[j];
      }
    }
    forall j, k | 0 <= j < |done| && 0 <= k < |done[j]| ensures done[j][k] in Nodes(tree) {
      if j < |s.done| {
        assert done[j] == s.done[j];
      } else if k < |s.cur| {
        assert done[j][k] == s.cur[k] && s.cur[k] in s.cur;
      }
    }
    forall j | top' <= j < |tree| && isTarget(tree[j]) ensures [tree[j]] in done {
      if |s.stack| == top && j == top' {
        assert done[|done| - 1] == [tree[j]];
      } else {
        assert [tree[j]] in s.done;
      }
    }
  }

  /** The popped node is an interior node: it stays on the path and its
      references are pushed in order. */
  lemma DescendStepKeepsInv(tree: seq<StatNode>, isTarget: StatNode -> bool, s: Search, top: int)
    requires |s.stack| > 0 && SearchInv(tree, isTarget, top, s)
    requires !isTarget(s.stack[|s.stack| - 1]) && |s.stack[|s.stack| - 1].references| > 0
    ensures var node := s.stack[|s.stack| - 1];
            SearchInv(tree, isTarget, TopAfterPop(s, top),
                      Search(s.stack[..|s.stack| - 1] + node.references, s.done, s.cur + [node], true,
                             (if s.childLens <= 0 then 0 else s.childLens - 1) + |node.references|))
  {
    PopKeepsFrame(tree, s.stack, s.childLens, top);
    var node := s.stack[|s.stack| - 1];
    var rest := s.stack[..|s.stack| - 1];
    ReferencesInNodes(tree, node);
    var stack' := rest + node.references;
    assert stack'[..TopAfterPop(s, top)] == rest[..TopAfterPop(s, top)];
    forall n | n in stack' ensures n in Nodes(tree) {
      if n !in rest {
        assert n in node.references;
      }
    }
    var cur' := s.cur + [node];
    forall k | 0 <= k < |cur'| ensures !isTarget(cur'[k]) && |cur'[k].references| > 0 && cur'[k] in Nodes(tree) {
      if k < |s.cur| {
        assert cur'[k] == s.cur[k] && s.cur[k] in s.cur;
      }
    }
  }

  /** The popped node is a dead end: it leaves the path, and the path itself
      is dropped (`paths.pop()`) when no pushed node is pending. */
  lemma DeadEndStepKeepsInv(tree: seq<StatNode>, isTarget: StatNode -> bool, s: Search, top: int)
    requires |s.stack| > 0 && SearchInv(tree, isTarget, top, s)
    requires !isTarget(s.stack[|s.stack| - 1]) && |s.stack[|s.stack| - 1].references| == 0
    ensures var childLens := if s.childLens <= 0 then 0 else s.childLens - 1;
            SearchInv(tree, isTarget, TopAfterPop(s, top),
                      if childLens == 0 then Search(s.stack[..|s.stack| - 1], s.done, [], false, childLens)
                      else Search(s.stack[..|s.stack| - 1], s.done, s.cur, true, childLens))
  {
    PopKeepsFrame(tree, s.stack, s.childLens, top);
  }

  /** `n` is reached from the forest `ts` without passing through a target:
      it is one of its nodes, or lies under one that is not a target. These
      are the nodes the search pops. */
  ghost predicate Exposed(ts: seq<StatNode>, isTarget: StatNode -> bool, n: StatNode)
    decreases ts
  {
    exists j | 0 <= j < |ts| :: ts[j] == n || (!isTarget(ts[j]) && Exposed(ts[j].references, isTarget, n))
  }

  /** `n` is the last node of one of the paths. */
  ghost predicate Ends(paths: seq<seq<StatNode>>, n: StatNode) {
    exists j | 0 <= j < |paths| :: |paths[j]| > 0 && paths[j][|paths[j]| - 1] == n
  }

  /** Every path ends in a node exposed in the tree. */
  ghost predicate EndsExposed(tree: seq<StatNode>, isTarget: StatNode -> bool, paths: seq<seq<StatNode>>) {
    forall j | 0 <= j < |paths| :: |paths[j]| > 0 && Exposed(tree, isTarget, paths[j][|paths[j]| - 1])
  }

  /** Every target exposed in the tree ends one of the paths. */
  ghost predicate TargetsEnd(tree: seq<StatNode>, isTarget: StatNode -> bool, paths: seq<seq<StatNode>>) {
    forall n | isTarget(n) && Exposed(tree, isTarget, n) :: Ends(paths, n)
  }

  /** How many times `n` is reached from the forest `ts` without passing
      through a target: once for every position it occupies there, plus
      its occurrences under every non-target. The search pops each of them
      once. */
  ghost function Occ(ts: seq<StatNode>, isTarget: StatNode -> bool, n: StatNode): nat
    decreases ts
  {
    if ts == [] then 0
    else
      (if ts[0] == n then 1 else 0)
      + (if isTarget(ts[0]) then 0 else Occ(ts[0].references, isTarget, n))
      + Occ(ts[1..], isTarget, n)
  }

  /** How many of the paths end in `n`. */
  ghost function EndCount(paths: seq<seq<StatNode>>, n: StatNode): nat {
    if paths == [] then 0
    else
      var p := paths[|paths| - 1];
      EndCount(paths[..|paths| - 1], n) + (if |p| > 0 && p[|p| - 1] == n then 1 else 0)
  }

  /** Every target ends as many paths as it has occurrences in the tree. */
  ghost predicate EndsCounted(tree: seq<StatNode>, isTarget: StatNode -> bool, paths: seq<seq<StatNode>>) {
    forall n | isTarget(n) :: EndCount(paths, n) == Occ(tree, isTarget, n)
  }

  lemma {:induction false} OccConcat(a: seq<StatNode>, b: seq<StatNode>, isTarget: StatNode -> bool, n: StatNode)
    ensures Occ(a + b, isTarget, n) == Occ(a, isTarget, n) + Occ(b, isTarget, n)
  {
    if a != [] {
      assert (a + b)[0] == a[0];
      assert (a + b)[1..] == a[1..] + b;
      OccConcat(a[1..], b, isTarget, n);
    } else {
      assert a + b == b;
    }
  }

  /** A node has an occurrence exactly when it is exposed. */
  lemma {:induction false} OccExposed(ts: seq<StatNode>, isTarget: StatNode -> bool, n: StatNode)
    ensures Occ(ts, isTarget, n) > 0 <==> Exposed(ts, isTarget, n)
    decreases ts
  {
    if ts != [] {
      assert ts == [ts[0]] + ts[1..];
      ExposedConcat([ts[0]], ts[1..], isTarget, n);
      OccExposed(ts[0].references, isTarget, n);
      OccExposed(ts[1..], isTarget, n);
      assert Exposed([ts[0]], isTarget, n) <==> ts[0] == n || (!isTarget(ts[0]) && Exposed(ts[0].references, isTarget, n)) by {
        assert [ts[0]][0] == ts[0];
      }
    }
  }

  lemma ExposedConcat(a: seq<StatNode>, b: seq<StatNode>, isTarget: StatNode -> bool, n: StatNode)
    ensures Exposed(a + b, isTarget, n) <==> Exposed(a, isTarget, n) || Exposed(b, isTarget, n)
  {
    var ab := a + b;
    if Exposed(ab, isTarget, n) {
      var j :| 0 <= j < |ab| && (ab[j] == n || (!isTarget(ab[j]) && Exposed(ab[j].references, isTarget, n)));
      if j < |a| {
        assert ab[j] == a[j];
      } else {
        assert ab[j] == b[j - |a|];
      }
    }
    if Exposed(a, isTarget, n) {
      var j :| 0 <= j < |a| && (a[j] == n || (!isTarget(a[j]) && Exposed(a[j].references, isTarget, n)));
      assert ab[j] == a[j];
    }
    if Exposed(b, isTarget, n) {
      var j :| 0 <= j < |b| && (b[j] == n || (!isTarget(b[j]) && Exposed(b[j].references, isTarget, n)));
      assert ab[|a| + j] == b[j];
    }
  }

  /** The references of an exposed non-target are exposed. */
  lemma {:induction false} ExposedChild(ts: seq<StatNode>, isTarget: StatNode -> bool, n: StatNode, c: StatNode)
    requires Exposed(ts, isTarget, n) && !isTarget(n) && c in n.references
    ensures Exposed(ts, isTarget, c)
    decreases ts
  {
    var j :| 0 <= j < |ts| && (ts[j] == n || (!isTarget(ts[j]) && Exposed(ts[j].references, isTarget, n)));
    if ts[j] == n {
      var k :| 0 <= k < |n.references| && n.references[k] == c;
      assert Exposed(ts[j].references, isTarget, c);
    } else {
      ExposedChild(ts[j].references, isTarget, n, c);
    }
  }

  /** Completeness of the search between two iterations: every stack node
      and every finished path's last node is exposed in the tree, and every
      exposed target already ends a finished path or is still exposed in
      the stack. */
  ghost predicate CompleteInv(tree: seq<StatNode>, isTarget: StatNode -> bool, s: Search) {
    && (forall n | n in s.stack :: Exposed(tree, isTarget, n))
    && (forall j | 0 <= j < |s.done| :: |s.done[j]| > 0 && Exposed(tree, isTarget, s.done[j][|s.done[j]| - 1]))
    && (forall n | isTarget(n) && Exposed(tree, isTarget, n) :: Ends(s.done, n) || Exposed(s.stack, isTarget, n))
  }

  /** One iteration keeps completeness: the popped node either ends a new
      path (a target) or hands its references to the stack (a non-target;
      a dead end has none). */
  lemma CompleteStep(tree: seq<StatNode>, isTarget: StatNode -> bool, s: Search, s': Search)
    requires |s.stack| > 0 && CompleteInv(tree, isTarget, s)
    requires var node := s.stack[|s.stack| - 1];
             s'.stack == s.stack[..|s.stack| - 1] + (if isTarget(node) then [] else node.references)
    requires var node := s.stack[|s.stack| - 1];
             if isTarget(node) then
               && |s'.done| == |s.done| + 1 && s'.done[..|s.done|] == s.done
               && |s'.done[|s.done|]| > 0 && s'.done[|s.done|][|s'.done[|s.done|]| - 1] == node
             else s'.done == s.done
    ensures CompleteInv(tree, isTarget, s')
  {
    var node := s.stack[|s.stack| - 1];
    var rest := s.stack[..|s.stack| - 1];
    var pushed := if isTarget(node) then [] else node.references;
    assert s.stack == rest + [node];
    assert node in s.stack;
    forall n | n in s'.stack ensures Exposed(tree, isTarget, n) {
      if n in rest {
        assert n in s.stack;
      } else {
        assert n in pushed;
        ExposedChild(tree, isTarget, node, n);
      }
    }
    forall j | 0 <= j < |s'.done| ensures |s'.done[j]| > 0 && Exposed(tree, isTarget, s'.done[j][|s'.done[j]| - 1]) {
      if j < |s.done| {
        assert s'.done[j] == s.done[j];
      }
    }
    forall n | isTarget(n) && Exposed(tree, isTarget, n) ensures Ends(s'.done, n) || Exposed(s'.stack, isTarget, n) {
      ExposedConcat(rest, [node], isTarget, n);
      ExposedConcat(rest, pushed, isTarget, n);
      if Ends(s.done, n) {
        var j :| 0 <= j < |s.done| && |s.done[j]| > 0 && s.done[j][|s.done[j]| - 1] == n;
        assert s'.done[j] == s.done[j];
      } else if !Exposed(rest, isTarget, n) {
        assert Exposed([node], isTarget, n);
        if node == n {
          assert Ends(s'.done, n) by {
            assert |s'.done[|s.done|]| > 0 && s'.done[|s.done|][|s'.done[|s.done|]| - 1] == n;
          }
        }
      }
    }
  }

  lemma SizeAllSingle(n: StatNode)
    ensures SizeAll([n]) == 1 + SizeAll(n.references)
  {
    assert [n][1..] == [];
  }

  lemma SizeAllSnoc(rest: seq<StatNode>, n: StatNode)
    ensures SizeAll(rest + [n]) == SizeAll(rest) + 1 + SizeAll(n.references)
  {
    SizeAllConcat(rest, [n]);
    SizeAllSingle(n);
  }

  /** Path counting between two iterations: for every target, the finished
      paths ending in it and its occurrences still on the stack add up to
      its occurrences in the tree. */
  ghost predicate CountInv(tree: seq<StatNode>, isTarget: StatNode -> bool, s: Search) {
    forall n | isTarget(n) :: EndCount(s.done, n) + Occ(s.stack, isTarget, n) == Occ(tree, isTarget, n)
  }

  /** One iteration keeps the count: a popped target moves one occurrence
      from the stack to a new path; a popped non-target is not a target, and
      its references carry exactly its occurrences below it. */
  lemma CountStep(tree: seq<StatNode>, isTarget: StatNode -> bool, s: Search, s': Search)
    requires |s.stack| > 0 && CountInv(tree, isTarget, s)
    requires var node := s.stack[|s.stack| - 1];
             s'.stack == s.stack[..|s.stack| - 1] + (if isTarget(node) then [] else node.references)
    requires var node := s.stack[|s.stack| - 1];
             if isTarget(node) then
               && |s'.done| == |s.done| + 1 && s'.done[..|s.done|] == s.done
               && |s'.done[|s.done|]| > 0 && s'.done[|s.done|][|s'.done[|s.done|]| - 1] == node
             else s'.done == s.done
    ensures CountInv(tree, isTarget, s')
  {
    var node := s.stack[|s.stack| - 1];
    var rest := s.stack[..|s.stack| - 1];
    var pushed := if isTarget(node) then [] else node.references;
    assert s.stack == rest + [node];
    assert [node][0] == node && [node][1..] == [];
    forall n | isTarget(n) ensures EndCount(s'.done, n) + Occ(s'.stack, isTarget, n) == Occ(tree, isTarget, n) {
      OccConcat(rest, [node], isTarget, n);
      OccConcat(rest, pushed, isTarget, n);
      if isTarget(node) {
        assert EndCount(s'.done, n) == EndCount(s.done, n) + (if node == n then 1 else 0);
      }
    }
  }

  /** Both completeness and the path count survive one iteration. */
  lemma SearchStep(tree: seq<StatNode>, isTarget: StatNode -> bool, s: Search, s': Search)
    requires |s.stack| > 0
    requires var node := s.stack[|s.stack| - 1];
             s'.stack == s.stack[..|s.stack| - 1] + (if isTarget(node) then [] else node.references)
    requires var node := s.stack[|s.stack| - 1];
             if isTarget(node) then
               && |s'.done| == |s.done| + 1 && s'.done[..|s.done|] == s.done
               && |s'.done[|s.done|]| > 0 && s'.done[|s.done|][|s'.done[|s.done|]| - 1] == node
             else s'.done == s.done
    ensures CompleteInv(tree, isTarget, s) ==> CompleteInv(tree, isTarget, s')
    ensures CountInv(tree, isTarget, s) ==> CountInv(tree, isTarget, s')
  {
    if CompleteInv(tree, isTarget, s) {
      CompleteStep(tree, isTarget, s, s');
    }
    if CountInv(tree, isTarget, s) {
      CountStep(tree, isTarget, s, s');
    }
  }

  /** Popping the last node, and pushing its references in its place, both
      shrink the forest left to visit. */
  lemma PopShrinks(stack: seq<StatNode>)
    requires |stack| > 0
    ensures var node := stack[|stack| - 1];
            && SizeAll(stack[..|stack| - 1]) < SizeAll(stack)
            && SizeAll(stack[..|stack| - 1] + node.references) < SizeAll(stack)
  {
    var node := stack[|stack| - 1];
    var rest := stack[..|stack| - 1];
    SnocShrinks(rest, node);
    SnocIsStack(stack);
  }

  /** Dropping the last node, or replacing it by its references, shrinks
      the forest. */
  lemma SnocShrinks(rest: seq<StatNode>, node: StatNode)
    ensures SizeAll(rest) < SizeAll(rest + [node])
    ensures SizeAll(rest + node.references) < SizeAll(rest + [node])
  {
    SizeAllSnoc(rest, node);
    SizeAllConcat(rest, node.references);
  }

  lemma SnocIsStack(stack: seq<StatNode>)
    requires |stack| > 0
    ensures stack[..|stack| - 1] + [stack[|stack| - 1]] == stack
  {
  }

  /** With only targets at the top level, the popped node is always a target
      taken from the top level, and it becomes the next path on its own. */
  lemma AllTargetsStep(tree: seq<StatNode>, isTarget: StatNode -> bool, s: Search, top: int)
    requires |s.stack| > 0 && SearchInv(tree, isTarget, top, s)
    requires AllTargets(tree, isTarget) && AllTargetsInv(tree, top, s)
    ensures var node := s.stack[|s.stack| - 1];
            && isTarget(node)
            && AllTargetsInv(tree, TopAfterPop(s, top),
                             Search(s.stack[..|s.stack| - 1], s.done + [s.cur + [node]], [], false,
                                    if s.childLens <= 0 then 0 else s.childLens - 1))
  {
    var node := s.stack[|s.stack| - 1];
    assert node == s.stack[..top][top - 1] == tree[top - 1];
    var done := s.done + [s.cur + [node]];
    forall j | 0 <= j < |done| ensures done[j] == [tree[|tree| - 1 - j]] {
      if j < |s.done| {
        assert done[j] == s.done[j];
      }
    }
  }

  /** One iteration of the while loop of getUsedInfoTreePathOfTarget. */
  method Visit(tree: seq<StatNode>, isTarget: StatNode -> bool, s: Search, ghost top: int)
    returns (s': Search, ghost top': int)
    requires |s.stack| > 0
    requires SearchInv(tree, isTarget, top, s)
    ensures SearchInv(tree, isTarget, top', s')
    ensures CompleteInv(tree, isTarget, s) ==> CompleteInv(tree, isTarget, s')
    ensures CountInv(tree, isTarget, s) ==> CountInv(tree, isTarget, s')
    ensures AllTargets(tree, isTarget) && AllTargetsInv(tree, top, s) ==> AllTargetsInv(tree, top', s')
    ensures SizeAll(s'.stack) < SizeAll(s.stack)
  {
    var node := s.stack[|s.stack| - 1];
    var rest := s.stack[..|s.stack| - 1];
    var childLens := if s.childLens <= 0 then 0 else s.childLens - 1;
    top' := TopAfterPop(s, top);
    PopShrinks(s.stack);
    if AllTargets(tree, isTarget) && AllTargetsInv(tree, top, s) {
      AllTargetsStep(tree, isTarget, s, top);
    }
    if isTarget(node) {
      TargetStepKeepsInv(tree, isTarget, s, top);
      s' := Search(rest, s.done + [s.cur + [node]], [], false, childLens);
    } else if |node.references| > 0 {
      DescendStepKeepsInv(tree, isTarget, s, top);
      s' := Search(rest + node.references, s.done, s.cur + [node], true, childLens + |node.references|);
    } else {
      DeadEndStepKeepsInv(tree, isTarget, s, top);
      if childLens == 0 {
        s' := Search(rest, s.done, [], false, childLens);
      } else {
        s' := Search(rest, s.done, s.cur, true, childLens);
      }
    }
    assert s'.stack == rest + (if isTarget(node) then [] else node.references);
    SearchStep(tree, isTarget, s, s');
  }

  /** The state before the first iteration: the whole tree on the stack. */
  lemma SearchStart(tree: seq<StatNode>, isTarget: StatNode -> bool)
    ensures var s := Search(tree, [], [], false, 0);
            && SearchInv(tree, isTarget, |tree|, s)
            && CompleteInv(tree, isTarget, s)
            && CountInv(tree, isTarget, s)
            && (AllTargets(tree, isTarget) ==> AllTargetsInv(tree, |tree|, s))
  {
    TopLevelInNodes(tree);
    forall n | n in tree ensures Exposed(tree, isTarget, n) {
      var j :| 0 <= j < |tree| && tree[j] == n;
    }
  }

  /** Once the stack is empty no path is under construction, and the
      finished paths are the answer. */
  lemma SearchEnd(tree: seq<StatNode>, isTarget: StatNode -> bool, s: Search, top: int)
    requires |s.stack| == 0 && SearchInv(tree, isTarget, top, s) && CompleteInv(tree, isTarget, s)
    requires CountInv(tree, isTarget, s)
    requires AllTargets(tree, isTarget) ==> AllTargetsInv(tree, top, s)
    ensures !s.open
    ensures s.done != [] ==> |s.done[|s.done| - 1]| > 0 && isTarget(s.done[|s.done| - 1][|s.done[|s.done| - 1]| - 1])
    ensures tree == [] ==> s.done == []
    ensures forall j | 0 <= j < |s.done| :: TargetPath(s.done[j], isTarget)
    ensures InForest(s.done, tree)
    ensures forall j | 0 <= j < |tree| && isTarget(tree[j]) :: [tree[j]] in s.done
    ensures EndsExposed(tree, isTarget, s.done) && TargetsEnd(tree, isTarget, s.done)
    ensures EndsCounted(tree, isTarget, s.done)
    ensures AllTargets(tree, isTarget) ==>
              |s.done| == |tree| && forall j | 0 <= j < |tree| :: s.done[j] == [tree[|tree| - 1 - j]]
  {
    if s.done != [] {
      assert TargetPath(s.done[|s.done| - 1], isTarget);
    }
    if tree == [] && s.done != [] {
      assert false;
    }
    assert forall n :: !Exposed(s.stack, isTarget, n);
  }

  /** getUsedInfoTreePathOfTarget: depth-first search with an explicit stack;
      children are pushed in order, so siblings are visited last-first. A
      target ends the current path and its children are never pushed; a
      dead end is popped off the current path, and the whole current path is
      dropped when no pushed child is still pending (`childLens`). */
  method UsedInfoTreePathOfTarget(tree: seq<StatNode>, isTarget: StatNode -> bool)
    returns (paths: seq<seq<StatNode>>)
    ensures tree == [] ==> paths == []
    ensures forall j | 0 <= j < |paths| :: TargetPath(paths[j], isTarget)
    ensures InForest(paths, tree)
    ensures forall j | 0 <= j < |tree| && isTarget(tree[j]) :: [tree[j]] in paths
    ensures EndsExposed(tree, isTarget, paths)
    ensures TargetsEnd(tree, isTarget, paths)
    ensures EndsCounted(tree, isTarget, paths)
    ensures AllTargets(tree, isTarget) ==>
              |paths| == |tree| && forall j | 0 <= j < |tree| :: paths[j] == [tree[|tree| - 1 - j]]
  {
    var s := Search(tree, [], [], false, 0);
    ghost var top := |tree|;
    SearchStart(tree, isTarget);
    while |s.stack| > 0
      invariant SearchInv(tree, isTarget, top, s)
      invariant CompleteInv(tree, isTarget, s)
      invariant CountInv(tree, isTarget, s)
      invariant AllTargets(tree, isTarget) ==> AllTargetsInv(tree, top, s)
      decreases SizeAll(s.stack)
    {
      s, top := Visit(tree, isTarget, s, top);
    }
    SearchEnd(tree, isTarget, s, top);
    var found := s.done + (if s.open then [s.cur] else []);
    assert found == s.done;
    var keep := if |found| == 0 then 0 else |found| - 1;
    if |found| > 0 && isTarget(found[|found| - 1][|found[|found| - 1]| - 1]) {
      paths := found;
    } else {
      paths := found[..keep];
    }
    assert paths == s.done;
  }

  // ---------------------------------------------------------------------------
  // Per-page weights (computeImportVarsUsedCountOfPages)
  // ---------------------------------------------------------------------------

  /** A node is the entry of page directory `pageDir` iff its key is
      `${pageDir}/index.tsx` or `${pageDir}/index.ts`. */
  predicate IsPageEntry(pageDir: string, node: StatNode) {
    node.key == pageDir + "/index.tsx" || node.key == pageDir + "/index.ts"
  }

  /** The per-path logs of a list of paths, in order. */
  function PathLogs(paths: seq<seq<StatNode>>): (logs: seq<CountLog>)
    ensures |logs| == |paths|
  {
    seq(|paths|, j requires 0 <= j < |paths| => UsedCountByPaths(paths[j]))
  }

  /** The target test of page directory `pageDir`. */
  function PageTarget(pageDir: string): StatNode -> bool {
    n => IsPageEntry(pageDir, n)
  }

  /** The paths a page's weights were summed over: each one a finished path
      through nodes of the tree whose last node is an entry of that page
      reached without passing another one, every such entry the last node
      of one of them, and every top-level page entry a path of its own. */
  ghost predicate PagePaths(tree: seq<StatNode>, pageDir: string, paths: seq<seq<StatNode>>) {
    && (forall j | 0 <= j < |paths| :: TargetPath(paths[j], PageTarget(pageDir)))
    && InForest(paths, tree)
    && EndsExposed(tree, PageTarget(pageDir), paths)
    && TargetsEnd(tree, PageTarget(pageDir), paths)
    && EndsCounted(tree, PageTarget(pageDir), paths)
    && (forall j | 0 <= j < |tree| && PageTarget(pageDir)(tree[j]) :: [tree[j]] in paths)
  }

  /** The weights of one page directory: the path logs of every path to
      one of its entries, summed key by key. */
  method PageWeights(tree: seq<StatNode>, pageDir: string)
    returns (log: CountLog, paths: seq<seq<StatNode>>)
    ensures PagePaths(tree, pageDir, paths)
    ensures log == SumLogs(PathLogs(paths))
  {
    paths := UsedInfoTreePathOfTarget(tree, PageTarget(pageDir));
    log := SumLogs(PathLogs(paths));
  }

  /** A page entry reached by two routes ends two of the page's paths, so
      its weights are summed twice: `a` imports `b` and `c`, and both import
      the entry. */
  lemma DiamondCountsTwice(paths: seq<seq<StatNode>>)
    requires var entry := StatNode("pages/a/index.ts", [], []);
             PagePaths([StatNode("a", [], [StatNode("b", [], [entry]), StatNode("c", [], [entry])])], "pages/a", paths)
    ensures EndCount(paths, StatNode("pages/a/index.ts", [], [])) == 2
  {
    var isTarget := PageTarget("pages/a");
    var entry := StatNode("pages/a/index.ts", [], []);
    var b := StatNode("b", [], [entry]);
    var c := StatNode("c", [], [entry]);
    var a := StatNode("a", [], [b, c]);
    assert isTarget(entry) && !isTarget(a) && !isTarget(b) && !isTarget(c);
    assert Occ([entry], isTarget, entry) == 1 by {
      assert [entry][1..] == [];
    }
    assert Occ([c], isTarget, entry) == 1 by {
      assert [c][1..] == [];
    }
    assert Occ([b, c], isTarget, entry) == 2 by {
      assert [b, c][1..] == [c];
    }
    assert Occ([a], isTarget, entry) == 2 by {
      assert [a][1..] == [];
    }
  }

  /** computeImportVarsUsedCountOfPages, with the page directories (already
      formatted, one per entry of the pages root) passed in. */
  method UsedCountOfPages(tree: seq<StatNode>, pageDirs: seq<string>)
    returns (result: map<string, CountLog>, ghost pathsOf: map<string, seq<seq<StatNode>>>)
    ensures result.Keys == set p | p in pageDirs
    ensures pathsOf.Keys == result.Keys
    ensures forall p | p in result :: PagePaths(tree, p, pathsOf[p])
    ensures forall p | p in result :: result[p] == SumLogs(PathLogs(pathsOf[p]))
  {
    result := map[];
    pathsOf := map[];
    for idx := 0 to |pageDirs|
      invariant result.Keys == set p | p in pageDirs[..idx]
      invariant pathsOf.Keys == result.Keys
      invariant forall p | p in result :: PagePaths(tree, p, pathsOf[p])
      invariant forall p | p in result :: result[p] == SumLogs(PathLogs(pathsOf[p]))
    {
      var p := pageDirs[idx];
      var log, treePaths := PageWeights(tree, p);
      result := result[p := log];
      pathsOf := pathsOf[p := treePaths];
      assert pageDirs[..idx + 1] == pageDirs[..idx] + [p];
    }
    assert pageDirs[..|pageDirs|] == pageDirs;
  }
}

=== FILE: wrappers.dfy ===
/** Failure-compatible wrappers used throughout the model: an optional value
    (the source's `undefined`) and a result that carries the exception a
    TypeScript call would throw. */
module Wrappers {

  datatype Option<+T> = None | Some(value: T) {

    /** The value, or `default` when absent (TypeScript `x ?? default`). */
    function GetOr(default: T): T {
      match this
      case Some(v) => v
      case None => default
    }
  }

  datatype Result<+R, +E> = Success(value: R) | Failure(error: E) {

    predicate IsFailure() {
      Failure?
    }

    function PropagateFailure<U>(): Result<U, E>
      requires Failure?
    {
      Failure(error)
    }

    function Extract(): R
      requires Success?
    {
      value
    }
  }
}
